=== FILE: README.md ===
# Synthetic table generator — a Dafny model

The modelled system produces synthetic tabular data. A table configuration
(`ConfiguracaoCSV`) gives a row count, an ordered list of columns and two
formatting options. Each column has a name and a generator configuration,
which is a union selected by the `tipoGerador` tag:

- `regex`, with a pattern;
- `gaussiano`, with a mean and a positive standard deviation;
- `linear`, with an initial value and a step.

The configuration is validated all at once, and every violated constraint is
reported. A factory (`get_gerador`) turns each column's configuration into a
generator. The orchestrator (`SistemaGerador`) asks every column's generator
for one value per row, row by row and column by column, and stores each value
under the column's name. The serializer (`converter_para_csv_string`) writes
the rows as delimited text with Python's `csv` module:

- a header line;
- CRLF line ends;
- minimal quoting;
- every `.` in a float's text replaced by the decimal separator.

The model has seven modules, one file each:

- `Wrappers` (`wrappers.dfy`): `Option` and `Result`.
- `Models` (`models.dfy`): the configuration entities, the raw input they are
  validated from, the error list with locations and messages, and the
  validation functions.
- `Generators` (`generators.dfy`): the three generators, one request to a
  generator (`Produce`), and the closed forms of any number of requests.
- `Services` (`services.dfy`): the factory, the system under construction, and
  row generation as a method with loop invariants. Its contract relates the
  method to a declarative reference (`ExpectedRows`).
- `CsvWriter` (`csv_writer.dfy`): the serializer.
- `CsvReader` (`csv_reader.dfy`): a strict reader for the format of RFC 4180,
  section 2. The writer's main property is stated against it: reading the
  output gives back the header and the rendered rows.
- `Pipeline` (`pipeline.dfy`): the composition "configuration in, delimited
  text out" and the scenarios the repository's tests describe.

Three foreign effects are parameters of the model:

- Regex compilation is `check: string -> Option<string>`. `None` means the
  pattern compiles; `Some(reason)` carries the error text.
- Randomness is an `Entropy` value. `xeger(pattern, t)` and
  `normal(mean, sd, t)` give the value of the `t`-th request of a run.
- Python's `str(float)` is `floatText: real -> string`.

Floats are modelled as `real`.

Points where the code's behaviour is easy to misread:

- **Delimiter length.** The configuration accepts a delimiter of any length
  (src/gerador_dados/modelos.py:66). The serializer passes it straight to
  `csv.DictWriter` (src/gerador_dados/utils_csv.py:23), which refuses any
  delimiter that is not exactly one character. `ToCsvString` then fails with
  `DelimiterNotOneChar`.
- **Column names.** The name is a plain `str`
  (src/gerador_dados/modelos.py:55), with no check on it. Empty and repeated
  names are accepted (`Pipeline.ColumnNamesNotValidated`,
  `Pipeline.RepeatedNameAccepted`). A repeated name keeps the value of the
  later column (`Pipeline.LaterDuplicateWins`).
- **Dot replacement.** `str.replace` on the float's text
  (src/gerador_dados/utils_csv.py:34) replaces every `.`, not only one between
  digits (`CsvWriter.ReplaceDots`).
- **Header quoting.** `writeheader` (src/gerador_dados/utils_csv.py:26) quotes
  the header by the same rule as the data. A column name holding the
  delimiter, a quote or a line break is quoted.
- **Linear factory.** The factory does not build linear generators; see
  Findings.

## Model

| member | source | states |
|---|---|---|
| Models.ValidateGenerator | src/gerador_dados/modelos.py:14-51 | Accepts exactly when the tag names a variant whose required fields are present and valid (the regex compiles; the standard deviation is > 0). The result carries the raw fields of that variant. A missing tag, an unknown tag, a bad pattern and a non-positive deviation each give the error pydantic reports, at its location. |
| Models.ValidateColumn | src/gerador_dados/modelos.py:53-58 | Accepts exactly when the name is present and the generator configuration is accepted. The result carries the name unchanged. A rejection always has at least one error. |
| Models.ValidateColumns | src/gerador_dados/modelos.py:65 | Accepts exactly when every column is accepted, keeping order and contents. On rejection, every refused column has an error below `colunas.i`, and every error lies below some refused column. |
| Models.ValidatePrefix | src/gerador_dados/modelos.py:58-65 | The same for the first n columns: accepted exactly when each of them is. On rejection, the errors report and blame exactly the refused columns among them. |
| Models.ValidateColumnList | src/gerador_dados/modelos.py:65-75 | A missing list gives "Field required". An empty list gives the one-column message. Otherwise the list validates like its columns. On a refused non-empty list, every refused column has an error below it, and every error lies below a refused column. |
| Models.Validate | src/gerador_dados/modelos.py:61-75 | Accepts exactly when the count is positive, the column list is non-empty and every column is accepted. The result agrees with the raw input, with "," and "." as the defaults. Each violation (missing or non-positive count, missing or empty list, each bad column) has its error in the list. Conversely, every reported error has grounds (`Justified`): it is one of those four count and list errors, with its condition holding, or it lies below a refused column. |
| Models.CountErrorGrounds | src/gerador_dados/modelos.py:64 | An error reported at `numLinhas` itself means the count is missing or not positive. |
| Models.ListErrorGrounds | src/gerador_dados/modelos.py:65-75 | An error reported at `colunas` itself means the list is missing or empty. |
| Generators.FromConfig | src/gerador_dados/geradores.py:17-42 | Each generator is of its configuration's kind and copies its parameters. The linear one starts at the initial value. |
| Generators.Produce | src/gerador_dados/geradores.py:22-48 | One request to a generator: a regex generator gives text, the others give floats. Regex and Gaussian generators keep their state. A linear generator returns its current value, keeps its step and advances by exactly the step. Every request, the linear one included, advances the run's request count by one. |
| Generators.ProduceAdvanced | src/gerador_dados/geradores.py:44-48 | The k-th request to a generator, at any turn of the source, gives its k-th answer, leaves it in state k+1 and moves the source on by one. |
| Generators.RunClosedForm | src/gerador_dados/geradores.py:38-48 | After n requests from a fresh generator, the state is `Advance(g, n)` and the source has moved on by n. The k-th answer is `Output(g, k)` at the source's k-th turn from the start. |
| Generators.LinearProgression | src/gerador_dados/geradores.py:38-48 | A linear generator yields start, start+step, start+2·step, … and ends at start+n·step with its step unchanged. |
| Generators.LinearFromTenByTwo | tests/test_core.py:26-32 | Starting at 10 with step 2, three requests give 10, 12 and 14. |
| Generators.OpaqueGeneratorsKeepParameters | src/gerador_dados/geradores.py:17-35 | Regex and Gaussian generators hold the parameters they were built with across any number of requests. |
| Services.GetGenerator | src/gerador_dados/servicos.py:5-18 | As written: succeeds exactly for the regex and gaussiano tags, building the generator of that kind. Every other configuration, the linear one included, fails with the unknown-kind error naming its tag. |
| Services.GetGeneratorIntended | tests/test_core.py:37-49 | Total: every configuration gets the generator of its own kind, with its parameters. |
| Services.BuildGenerators | src/gerador_dados/servicos.py:30-32 | Succeeds exactly when the factory accepts every column, giving one generator per column in column order. Otherwise it fails with the error of a refused column, every column before which was accepted. |
| Services.ColumnNames | src/gerador_dados/servicos.py:34 | The names, one per column, in column order. |
| Services.NewSystemWith | src/gerador_dados/servicos.py:27-34 | Builds exactly when the factory accepts every column. Generators and names then align with the columns, and a failure is the first refused column's error. |
| Services.NewSystem | src/gerador_dados/servicos.py:1-34 | As written: builds exactly when no column is linear. Otherwise the error is the unknown-kind error for "linear". |
| Services.NewSystemIntended | src/gerador_dados/servicos.py:27-34 | With the intended factory, every configuration gets a system whose generators come from the columns' configurations. |
| Services.ExpectedRow | src/gerador_dados/servicos.py:46-49 | A row's keys are exactly the column names. The entry of each name is the i-th value of the generator of the last column carrying that name. |
| Services.ExpectedRows | src/gerador_dados/servicos.py:44-51 | As many rows as the count asks for (none for a non-positive count), each keyed by the column names. |
| Services.GenerateRow | src/gerador_dados/servicos.py:46-50 | One pass over the columns, drawing on the run's source from the row's first turn, gives `ExpectedRow` for row i. It advances every generator by one request and moves the source on by one turn per column. |
| Services.StoreColumn | src/gerador_dados/servicos.py:49 | Storing column j's answer, taken at the source's turn for (i, j), extends the row built from the first j columns to the first j+1, advances only column j's generator and moves the source on by one. |
| Services.FillRow | src/gerador_dados/servicos.py:48-49 | After the loop over all columns, the row holds every name with the value of its last column, every generator has served one more request, and the source has moved on by one turn per column. |
| Services.GenerateRows | src/gerador_dados/servicos.py:36-51 | Produces exactly `ExpectedRows`: n rows with the column names as keys. Each generator is left advanced by n requests, and the source by n times the number of columns. Cell (i, j) holds column j's i-th answer at turn i·m+j of the source: the draws are served in row-major order. |
| CsvWriter.ReplaceDots | src/gerador_dados/utils_csv.py:32-34 | Text without `.` is unchanged, and `.` alone becomes the separator. With a one-character separator, each position holds the separator where `s` had `.` and the original character elsewhere. Every character comes from `s` (not a dot) or from the separator. |
| CsvWriter.ReplaceDotsConcat | src/gerador_dados/utils_csv.py:34 | For any separator, replacing in a concatenation is concatenating the replacements. With the single-character cases, this fixes the result for every text and every separator. |
| CsvWriter.FirstExtraKeys | src/gerador_dados/utils_csv.py:29-37 | None exactly when no row has a key outside the names. Otherwise it gives the extra keys of the first such row. |
| CsvWriter.ToCsvString | src/gerador_dados/utils_csv.py:5-40 | Fails exactly when the delimiter is not one character or some row has a key outside the names, reporting the first such row's extra keys. On success with an unambiguous delimiter, reading the output back gives the header then each row's fields in name order: floats with the separator substituted, missing names empty. |
| CsvWriter.PlainDocument | src/gerador_dados/utils_csv.py:23-37 | When no field needs quoting and no record is a lone empty field, the written document is exactly each record's fields joined by the delimiter, followed by CRLF. The writer adds no quotes of its own. |
| CsvWriter.PlainOutput | src/gerador_dados/utils_csv.py:23-40 | The same for a successful serialisation: with nothing to quote, the output is the plain lines of the header and the rows. |
| CsvWriter.UnquotedRoundTrip | src/gerador_dados/utils_csv.py:23 | A field needing no quotes is read back whole, up to the next delimiter or line end. |
| CsvWriter.QuotedRoundTrip | src/gerador_dados/utils_csv.py:23 | A field with its quotes doubled and a closing quote is read back as the original field. |
| CsvWriter.EscapeLength | src/gerador_dados/utils_csv.py:23 | Escaping a field grows it by exactly one character per double quote it holds. |
| CsvWriter.FieldRoundTrip | src/gerador_dados/utils_csv.py:23 | Any field, as the writer quotes it, is read back unchanged. |
| CsvWriter.FieldsRoundTrip | src/gerador_dados/utils_csv.py:23 | The quoted fields joined by the delimiter and ended by CRLF are read back as the original fields. |
| CsvWriter.RecordRoundTrip | src/gerador_dados/utils_csv.py:26-37 | Every record, including the single empty field written `""`, is read back unchanged. |
| CsvWriter.DocumentRoundTrip | src/gerador_dados/utils_csv.py:23-40 | The whole written document is read back as exactly its records. |
| CsvWriter.RecordCount | src/gerador_dados/utils_csv.py:26-37 | The output holds one record more than there are rows. The first record is the names, and every record is as wide as the header. |
| CsvWriter.HeaderLine | src/gerador_dados/utils_csv.py:26 | When no name needs quoting, the output begins with the names joined by the delimiter and a CRLF. |
| CsvWriter.FloatFieldQuoting | src/gerador_dados/utils_csv.py:32-37 | When neither the separator nor the float's text contains a double quote, CR or LF, a rendered float is quoted exactly when it contains the delimiter, and is then only wrapped in quotes. |
| CsvWriter.QuoteSeparatorForcesQuoting | src/gerador_dados/utils_csv.py:34 | Without that condition the equivalence fails: with the separator `"`, 1.5 is rendered `1"5`, which holds no delimiter but is written quoted as `"1""5"`. |
| CsvWriter.PointSeparatorKeepsText | src/gerador_dados/utils_csv.py:9-34 | With the default "." separator, the separator substitution leaves a float's printed text unchanged, so its field text, before any quoting, is that text. |
| CsvWriter.DecimalCommaExample | src/gerador_dados/utils_csv.py:34 | 123.45 with the "," separator renders as the field text 123,45, before any quoting. |
| CsvWriter.DecimalCommaWritten | src/gerador_dados/utils_csv.py:23-34 | Under the default "," delimiter, 123.45 with the "," separator is written quoted, as "123,45". |
| CsvWriter.SemicolonFieldQuoted | src/gerador_dados/utils_csv.py:23 | With ";" as the delimiter, the field "Item B; com ponto-e-virgula" is written between quotes. |
| CsvWriter.QuotedWhenNeeded | src/gerador_dados/utils_csv.py:23 | A field that needs quoting and holds no quote is written between quotes and otherwise unchanged. |
| Pipeline.GenerateCsv | src/gerador_dados/main.py:34-46 | The composition validate, build, generate, serialize: rejected input gives the validation errors, a refused column gives a factory error, and a serialization failure can only be a bad delimiter length. On success, the output is exactly the serialization of the header and the expected rows, and reading it back gives them. |
| Pipeline.GeneratedRowsSerialise | src/gerador_dados/main.py:37-44 | Generated rows always serialise with a one-character delimiter, since their keys are exactly the column names. With an unambiguous delimiter, the output reads back as the header and the rendered rows. |
| Pipeline.SingleRefusedGenerator | src/gerador_dados/modelos.py:48-58 | A table whose only column has a refused generator reports exactly that generator's errors, located below `colunas.0.configGerador`. |
| Pipeline.UncompilablePatternRefused | tests/test_api.py:35-57 | A pattern that does not compile gives exactly one error, at `colunas.0.configGerador.regex.expressao`, whose message starts with the syntax-error text. |
| Pipeline.CompilablePatternAccepted | src/gerador_dados/modelos.py:19-28 | A pattern that compiles is accepted and kept as given. |
| Pipeline.NonPositiveDeviationRefused | tests/test_api.py:59-81 | A deviation ≤ 0 gives exactly one error, at `colunas.0.configGerador.gaussiano.desvioPadrao`, with the message "Input should be greater than 0". |
| Pipeline.AnyLinearAccepted | src/gerador_dados/modelos.py:39-43 | A linear configuration with both numbers is accepted for every start and step. |
| Pipeline.UnknownTagRefused | src/gerador_dados/modelos.py:46-51 | A tag outside the three variants is refused with the tag-mismatch error, never defaulted. |
| Pipeline.EmptyColumnsRefused | src/gerador_dados/modelos.py:69-75 | An empty column list is refused with "Value error, O arquivo CSV deve ter pelo menos uma coluna.". |
| Pipeline.FormattingDefaults | src/gerador_dados/modelos.py:66-67 | Absent formatting options become "," and ".". |
| Pipeline.ColumnNamesNotValidated | src/gerador_dados/modelos.py:55 | Tables that differ only in the column names are accepted or refused alike. |
| Pipeline.RepeatedNameAccepted | src/gerador_dados/modelos.py:53-58 | A name repeated over two columns, the empty name included, is accepted. |
| Pipeline.LinearRefusedAsWritten | src/gerador_dados/servicos.py:2-18 | As written, every linear configuration is refused with "Tipo de gerador desconhecido: linear". The intended factory builds the linear generator. |
| Pipeline.IntendedFactoryBuildsLinear | tests/test_core.py:47-49 | A table with a linear column fails to build as written. With the intended factory, that column gets the linear generator starting at its initial value. |
| Pipeline.LaterDuplicateWins | src/gerador_dados/servicos.py:48-49 | Of two columns with the same name, the row keeps only the later column's value. |
| Pipeline.SequenceRows | tests/test_api.py:84-116 | Five rows of SEQUENCIA from 100 with step 10 hold 100, 110, 120, 130 and 140. |
| Pipeline.SequenceEndToEnd | tests/test_api.py:84-116 | The linear test configuration is accepted and fails to build as written. With the intended factory, the output is exactly the text `SEQUENCIA`, `100.0`, …, `140.0`, each followed by CRLF, and it reads back as those six records. |

## Left out

- The HTTP layer (`main.py`): routing, the streaming response, and mapping errors to status codes. Only the composition in `gerar_csv` is modelled, by `Pipeline.GenerateCsv`.
- The `print` at module load and the manual-test block under `__main__` in `modelos.py`: they are console output only.
- `rstr.xeger`, `numpy.random.normal` and `re.compile`: foreign code. The model takes them as parameters. It therefore says nothing about whether a generated string matches its pattern or about the distribution of samples.
- IEEE-754 floats and `str(float)`: floats are `real`, and the float's text form is the `floatText` parameter. Rounding, infinities and NaN are not modelled.
- Pydantic's JSON coercion: strings to numbers, integers to floats, booleans to integers, and the like. The raw input is already typed, and only absence of a field is modelled.
- The `csv` checks of newer Python versions that refuse particular delimiter characters. The round-trip property is stated only for delimiters other than the quote, CR and LF (`Unambiguous`).
- CsvWriter.FloatFieldQuoting: stated only for a separator and float text free of double quotes, CR and LF. The configuration accepts any separator, and with a quote or line break in it a float field is quoted without holding the delimiter (`CsvWriter.QuoteSeparatorForcesQuoting`); the general quoting rule still holds through `CsvWriter.FieldRoundTrip`.
- Services.GenerateRows: requires as many generators as names, which the constructor guarantees. It does not model `zip` silently truncating to the shorter list.
- `Mock` configurations in the factory test with tags outside the three variants: a `GeneratorConfig` always has one of the three tags, so the factory's last branch is reached only by the linear tag.

## Findings

| source | as written | input that shows it | evidently intended | confidence | as-written member | corrected member |
|---|---|---|---|---|---|---|
| src/gerador_dados/servicos.py:2-18 | `get_gerador` handles only "regex" and "gaussiano" (`GeradorLinear` is not even imported). Every linear configuration reaches the error branch. | `LinearConfig(0.0, 1.0)`, or the SEQUENCIA table of tests/test_api.py:84-116: the build fails with "Tipo de gerador desconhecido: linear" | a linear configuration yields a `GeradorLinear` (tests/test_core.py:47-49) | not executed | Pipeline.LinearRefusedAsWritten | Services.GetGeneratorIntended |

=== FILE: csv_reader.dfy ===
/**
 * A strict reader of delimited text in the format of RFC 4180, section 2:
 * records end in CRLF; a field is either unquoted (no delimiter, quote, CR or
 * LF inside) or enclosed in double quotes, with an inner quote written twice.
 * It is the inverse against which the writer is proved, not part of the
 * generator itself.
 */
module CsvReader {
  import opened Wrappers

  /** The characters an unquoted field cannot hold. */
  predicate EndsUnquoted(c: char, d: char) {
    c == d || c == '"' || c == '\r' || c == '\n'
  }

  /** Splits off the longest prefix that can be an unquoted field. */
  function ReadUnquoted(s: string, d: char): (r: (string, string))
    ensures r.0 + r.1 == s
    decreases |s|
  {
    if |s| == 0 || EndsUnquoted(s[0], d) then ("", s)
    else
      var (f, rest) := ReadUnquoted(s[1..], d);
      ([s[0]] + f, rest)
  }

  /**
   * Reads the body of a quoted field, `s` being the text after the opening
   * quote: a doubled quote stands for one quote, a single quote closes the
   * field. Returns the field and the text after the closing quote.
   */
  function ReadQuoted(s: string): (r: Option<(string, string)>)
    ensures r.Some? ==> |r.value.1| < |s|
    decreases |s|
  {
    if |s| == 0 then None
    else if s[0] == '"' then
      if |s| >= 2 && s[1] == '"' then
        match ReadQuoted(s[2..])
        case None => None
        case Some((f, rest)) => Some(("\"" + f, rest))
      else Some(("", s[1..]))
    else
      match ReadQuoted(s[1..])
      case None => None
      case Some((f, rest)) => Some(([s[0]] + f, rest))
  }

  /** Reads one field, quoted or not. */
  function ReadField(s: string, d: char): (r: Option<(string, string)>)
    ensures r.Some? ==> |r.value.1| <= |s|
  {
    if |s| > 0 && s[0] == '"' then ReadQuoted(s[1..]) else Some(ReadUnquoted(s, d))
  }

  /** Reads fields separated by `d` up to and including the CRLF that ends the record. */
  function ReadFields(s: string, d: char): (r: Option<(seq<string>, string)>)
    ensures r.Some? ==> |r.value.1| < |s|
    decreases |s|
  {
    match ReadField(s, d)
    case None => None
    case Some((f, t)) =>
      if |t| > 0 && t[0] == d then
        match ReadFields(t[1..], d)
        case None => None
        case Some((fs, rest)) => Some(([f] + fs, rest))
      else if |t| >= 2 && t[0] == '\r' && t[1] == '\n' then Some(([f], t[2..]))
      else None
  }

  /** Reads one record; a bare CRLF is the record with no fields. */
  function ReadRecord(s: string, d: char): (r: Option<(seq<string>, string)>)
    ensures r.Some? ==> |r.value.1| < |s|
  {
    if |s| >= 2 && s[0] == '\r' && s[1] == '\n' then Some(([], s[2..]))
    else ReadFields(s, d)
  }

  /** Reads a whole text as a sequence of records, or None when it is not well formed. */
  function ReadTable(s: string, d: char): (r: Option<seq<seq<string>>>)
    decreases |s|
  {
    if |s| == 0 then Some([])
    else
      match ReadRecord(s, d)
      case None => None
      case Some((fs, rest)) =>
        match ReadTable(rest, d)
        case None => None
        case Some(records) => Some([fs] + records)
  }
}

=== FILE: csv_writer.dfy ===
/**
 * The serialiser: renders produced rows as delimited text. A header record of
 * the column names comes first, then one record per row with the fields in
 * column-name order; every record ends in CRLF. Fields are quoted minimally,
 * as in RFC 4180, section 2, rules 6 and 7: a field holding the delimiter, a
 * double quote, CR or LF is enclosed in double quotes with each inner quote
 * doubled. A record made of one empty field is written as `""`, so that it
 * cannot be mistaken for a record with no fields. Float values are first
 * rendered as text and every `.` in that text is replaced by the decimal
 * separator.
 */
module CsvWriter {
  import opened Wrappers
  import opened Generators
  import opened Services
  import opened CsvReader

  const Crlf: string := "\r\n"

  /** The text form a float takes before any separator substitution. */
  type FloatText = real -> string

  // ---------------------------------------------------------------------
  // Field and record encoding
  // ---------------------------------------------------------------------

  predicate NeedsQuoting(f: string, d: char) {
    d in f || '"' in f || '\r' in f || '\n' in f
  }

  /** Doubles every double quote. */
  function Escape(f: string): (r: string)
    ensures |r| >= |f|
    decreases |f|
  {
    if |f| == 0 then ""
    else (if f[0] == '"' then "\"\"" else [f[0]]) + Escape(f[1..])
  }

  /** Escaping grows a field by exactly one character per double quote it holds. */
  lemma {:induction false} EscapeLength(f: string)
    ensures |Escape(f)| == |f| + multiset(f)['"']
    decreases |f|
  {
    if |f| > 0 {
      assert f == [f[0]] + f[1..];
      EscapeLength(f[1..]);
    }
  }

  function QuoteField(f: string, d: char): (r: string) {
    if NeedsQuoting(f, d) then "\"" + Escape(f) + "\"" else f
  }

  function QuoteAll(fs: seq<string>, d: char): (r: seq<string>)
    ensures |r| == |fs|
    ensures forall i :: 0 <= i < |fs| ==> r[i] == QuoteField(fs[i], d)
  {
    seq(|fs|, i requires 0 <= i < |fs| => QuoteField(fs[i], d))
  }

  /** Joins already-encoded fields with the delimiter. */
  function JoinFields(fs: seq<string>, d: char): (r: string)
    decreases |fs|
  {
    if |fs| == 0 then ""
    else if |fs| == 1 then fs[0]
    else fs[0] + [d] + JoinFields(fs[1..], d)
  }

  /** One record without its terminator. */
  function EncodeRecord(fs: seq<string>, d: char): (r: string) {
    if fs == [""] then "\"\"" else JoinFields(QuoteAll(fs, d), d)
  }

  /** Records, each followed by CRLF. */
  function Document(records: seq<seq<string>>, d: char): (r: string)
    decreases |records|
  {
    if |records| == 0 then ""
    else EncodeRecord(records[0], d) + Crlf + Document(records[1..], d)
  }

  // ---------------------------------------------------------------------
  // Values
  // ---------------------------------------------------------------------

  /**
   * Replaces every `.` of `s` by `sep`; the other characters are kept in
   * order.
   */
  function ReplaceDots(s: string, sep: string): (r: string)
    ensures '.' !in s ==> r == s
    ensures s == "." ==> r == sep
    ensures |sep| == 1 ==> |r| == |s|
    ensures |sep| == 1 ==> forall i :: 0 <= i < |s| ==> r[i] == (if s[i] == '.' then sep[0] else s[i])
    ensures forall c :: c in r ==> (c in s && c != '.') || c in sep
    decreases |s|
  {
    if |s| == 0 then ""
    else
      var rest := ReplaceDots(s[1..], sep);
      assert forall c :: c in s[1..] ==> c in s;
      (if s[0] == '.' then sep else [s[0]]) + rest
  }

  /** Substitution works character by character, whatever the separator: it distributes over concatenation. */
  lemma {:induction false} ReplaceDotsConcat(a: string, b: string, sep: string)
    ensures ReplaceDots(a + b, sep) == ReplaceDots(a, sep) + ReplaceDots(b, sep)
    decreases |a|
  {
    if |a| == 0 {
      assert a + b == b;
    } else {
      assert (a + b)[0] == a[0];
      assert (a + b)[1..] == a[1..] + b;
      ReplaceDotsConcat(a[1..], b, sep);
    }
  }

  /** A value's field text: floats through their text form with the separator substituted, text as is. */
  function Render(v: Value, sep: string, floatText: FloatText): (r: string) {
    match v
    case Text(s) => s
    case Float(x) => ReplaceDots(floatText(x), sep)
  }

  /** The field of column `name` in a row; a column the row lacks gives an empty field. */
  function FieldText(row: Row, name: string, sep: string, floatText: FloatText): (r: string) {
    if name in row then Render(row[name], sep, floatText) else ""
  }

  function RowFields(row: Row, names: seq<string>, sep: string, floatText: FloatText): (fs: seq<string>)
    ensures |fs| == |names|
  {
    seq(|names|, j requires 0 <= j < |names| => FieldText(row, names[j], sep, floatText))
  }

  /** The records the output stands for: the names, then one record per row in column-name order. */
  function Records(dados: seq<Row>, names: seq<string>, sep: string, floatText: FloatText): (rs: seq<seq<string>>)
    ensures |rs| == |dados| + 1 && rs[0] == names
    ensures forall i :: 1 <= i < |rs| ==> |rs[i]| == |names|
  {
    [names] + seq(|dados|, i requires 0 <= i < |dados| => RowFields(dados[i], names, sep, floatText))
  }

  // ---------------------------------------------------------------------
  // Serialisation
  // ---------------------------------------------------------------------

  datatype CsvError =
    | DelimiterNotOneChar          // the writer accepts only a one-character delimiter
    | ExtraFields(keys: set<string>)  // a row has keys that are not column names

  function ExtraKeys(row: Row, names: seq<string>): (r: set<string>) {
    row.Keys - NameSet(names)
  }

  /** The extra keys of the first row that has any, if one does. */
  function FirstExtraKeys(dados: seq<Row>, names: seq<string>): (r: Option<set<string>>)
    ensures r.None? <==> forall i :: 0 <= i < |dados| ==> ExtraKeys(dados[i], names) == {}
    ensures r.Some? ==> exists i :: 0 <= i < |dados| && r.value == ExtraKeys(dados[i], names) != {} &&
                          forall k :: 0 <= k < i ==> ExtraKeys(dados[k], names) == {}
    decreases |dados|
  {
    if |dados| == 0 then None
    else if ExtraKeys(dados[0], names) != {} then Some(ExtraKeys(dados[0], names))
    else
      var r := FirstExtraKeys(dados[1..], names);
      assert forall i :: 1 <= i < |dados| ==> dados[i] == dados[1..][i - 1];
      r
  }

  /** A delimiter the reader can tell apart from quotes and line ends. */
  predicate Unambiguous(d: char) {
    d != '"' && d != '\r' && d != '\n'
  }

  /**
   * Serialises rows: the header of column names, then each row's fields in
   * column-name order. Fails when the delimiter is not exactly one character,
   * or, naming its extra keys, at the first row with a key that is not a
   * column name. With a delimiter the reader can tell apart, reading the
   * output back gives exactly the header and the rows' rendered fields.
   */
  function ToCsvString(dados: seq<Row>, nomes: seq<string>, delimitador: string, separadorDecimal: string, floatText: FloatText)
    : (r: Result<string, CsvError>)
    ensures |delimitador| != 1 ==> r == Failure(DelimiterNotOneChar)
    ensures r.Failure? <==> |delimitador| != 1 || exists i :: 0 <= i < |dados| && ExtraKeys(dados[i], nomes) != {}
    ensures r.Failure? && |delimitador| == 1 ==>
              r.error.ExtraFields? && exists i :: 0 <= i < |dados| && r.error.keys == ExtraKeys(dados[i], nomes) != {} &&
                                                  forall k :: 0 <= k < i ==> ExtraKeys(dados[k], nomes) == {}
    ensures r.Success? && Unambiguous(delimitador[0]) ==>
              ReadTable(r.value, delimitador[0]) == Some(Records(dados, nomes, separadorDecimal, floatText))
  {
    if |delimitador| != 1 then Failure(DelimiterNotOneChar)
    else
      match FirstExtraKeys(dados, nomes)
      case Some(keys) => Failure(ExtraFields(keys))
      case None =>
        var d := delimitador[0];
        var records := Records(dados, nomes, separadorDecimal, floatText);
        assert Unambiguous(d) ==> ReadTable(Document(records, d), d) == Some(records) by {
          if Unambiguous(d) { DocumentRoundTrip(records, d); }
        }
        Success(Document(records, d))
  }

  // ---------------------------------------------------------------------
  // Round trip: reading the output gives the records back
  // ---------------------------------------------------------------------

  lemma {:induction false} UnquotedRoundTrip(f: string, t: string, d: char)
    requires !NeedsQuoting(f, d)
    requires |t| == 0 || EndsUnquoted(t[0], d)
    ensures ReadUnquoted(f + t, d) == (f, t)
    decreases |f|
  {
    if |f| == 0 {
      assert f + t == t;
    } else {
      assert f[0] in f && (f + t)[0] == f[0];
      assert !EndsUnquoted(f[0], d);
      assert (f + t)[1..] == f[1..] + t;
      assert forall c :: c in f[1..] ==> c in f;
      UnquotedRoundTrip(f[1..], t, d);
      assert [f[0]] + f[1..] == f;
    }
  }

  lemma {:induction false} QuotedRoundTrip(f: string, t: string)
    requires |t| == 0 || t[0] != '"'
    ensures ReadQuoted(Escape(f) + "\"" + t) == Some((f, t))
    decreases |f|
  {
    var s := Escape(f) + "\"" + t;
    if |f| == 0 {
      assert s == "\"" + t;
      assert s[1..] == t;
    } else {
      QuotedRoundTrip(f[1..], t);
      if f[0] == '"' {
        assert s[2..] == Escape(f[1..]) + "\"" + t;
      } else {
        assert s[1..] == Escape(f[1..]) + "\"" + t;
      }
      assert [f[0]] + f[1..] == f;
    }
  }

  lemma FieldRoundTrip(f: string, t: string, d: char)
    requires Unambiguous(d)
    requires |t| == 0 || t[0] == d || t[0] == '\r'
    ensures ReadField(QuoteField(f, d) + t, d) == Some((f, t))
  {
    if NeedsQuoting(f, d) {
      QuotedFieldRoundTrip(f, t, d);
    } else {
      PlainFieldRoundTrip(f, t, d);
    }
  }

  lemma QuotedFieldRoundTrip(f: string, t: string, d: char)
    requires NeedsQuoting(f, d)
    requires |t| == 0 || t[0] == d || t[0] == '\r'
    requires Unambiguous(d)
    ensures ReadField(QuoteField(f, d) + t, d) == Some((f, t))
  {
    var body := Escape(f) + "\"" + t;
    var s := "\"" + body;
    assert QuoteField(f, d) + t == s;
    QuotedRoundTrip(f, t);
    assert s[1..] == body;
  }

  lemma PlainFieldRoundTrip(f: string, t: string, d: char)
    requires !NeedsQuoting(f, d)
    requires |t| == 0 || t[0] == d || t[0] == '\r'
    requires Unambiguous(d)
    ensures ReadField(QuoteField(f, d) + t, d) == Some((f, t))
  {
    UnquotedRoundTrip(f, t, d);
    if |f| > 0 {
      assert f[0] in f;
      assert (f + t)[0] == f[0];
    }
  }

  /** Fields joined with the delimiter and ended by CRLF read back as the same fields. */
  lemma {:induction false} FieldsRoundTrip(fs: seq<string>, rest: string, d: char)
    requires Unambiguous(d) && |fs| > 0
    ensures ReadFields(JoinFields(QuoteAll(fs, d), d) + Crlf + rest, d) == Some((fs, rest))
    decreases |fs|
  {
    var qs := QuoteAll(fs, d);
    var s := JoinFields(qs, d) + Crlf + rest;
    if |fs| == 1 {
      assert JoinFields(qs, d) == qs[0] == QuoteField(fs[0], d);
      assert s == QuoteField(fs[0], d) + (Crlf + rest);
      FieldRoundTrip(fs[0], Crlf + rest, d);
      var t := Crlf + rest;
      assert |t| >= 2 && t[0] == '\r' && t[1] == '\n' && t[0] != d;
      assert t[2..] == rest;
      assert ReadFields(s, d) == Some(([fs[0]], rest));
      assert [fs[0]] == fs;
    } else {
      var tail := JoinFields(QuoteAll(fs[1..], d), d) + Crlf + rest;
      assert QuoteAll(fs[1..], d) == qs[1..];
      assert s == QuoteField(fs[0], d) + ([d] + tail);
      FieldRoundTrip(fs[0], [d] + tail, d);
      assert ([d] + tail)[1..] == tail;
      FieldsRoundTrip(fs[1..], rest, d);
      assert [fs[0]] + fs[1..] == fs;
    }
  }

  /** The first character of a joined, quoted field list is never CR. */
  lemma JoinedStartsWithoutCr(fs: seq<string>, d: char)
    requires Unambiguous(d) && |fs| > 0 && fs != [""]
    ensures var j := JoinFields(QuoteAll(fs, d), d); |j| > 0 && j[0] != '\r'
  {
    var qs := QuoteAll(fs, d);
    if fs[0] == "" {
      assert qs[0] == "";
      assert JoinFields(qs, d) == "" + [d] + JoinFields(qs[1..], d);
    } else if NeedsQuoting(fs[0], d) {
      assert JoinFields(qs, d)[0] == qs[0][0] == '"' by {
        if |qs| > 1 { assert JoinFields(qs, d) == qs[0] + ([d] + JoinFields(qs[1..], d)); }
      }
    } else {
      assert fs[0][0] in fs[0];
      assert JoinFields(qs, d)[0] == qs[0][0] == fs[0][0] by {
        if |qs| > 1 { assert JoinFields(qs, d) == qs[0] + ([d] + JoinFields(qs[1..], d)); }
      }
    }
  }

  /** Every record, including the empty one and the one-empty-field one, reads back unchanged. */
  lemma RecordRoundTrip(fs: seq<string>, rest: string, d: char)
    requires Unambiguous(d)
    ensures ReadRecord(EncodeRecord(fs, d) + Crlf + rest, d) == Some((fs, rest))
  {
    var s := EncodeRecord(fs, d) + Crlf + rest;
    if |fs| == 0 {
      assert s == Crlf + rest;
      assert s[2..] == rest;
    } else if fs == [""] {
      QuotedRoundTrip("", Crlf + rest);
      assert s[1..] == Escape("") + "\"" + (Crlf + rest);
      assert ReadField(s, d) == Some(("", Crlf + rest));
      assert (Crlf + rest)[2..] == rest;
    } else {
      JoinedStartsWithoutCr(fs, d);
      FieldsRoundTrip(fs, rest, d);
    }
  }

  /** Reading a document gives back the records it was written from. */
  lemma {:induction false} DocumentRoundTrip(records: seq<seq<string>>, d: char)
    requires Unambiguous(d)
    ensures ReadTable(Document(records, d), d) == Some(records)
    decreases |records|
  {
    if |records| > 0 {
      var rest := Document(records[1..], d);
      RecordRoundTrip(records[0], rest, d);
      DocumentRoundTrip(records[1..], d);
      assert [records[0]] + records[1..] == records;
    }
  }

  /** Each record's fields joined by the delimiter and followed by CRLF, with no quoting at all. */
  function Lines(records: seq<seq<string>>, d: char): (r: string)
    decreases |records|
  {
    if |records| == 0 then ""
    else JoinFields(records[0], d) + Crlf + Lines(records[1..], d)
  }

  /** No record is a lone empty field and no field needs quoting. */
  predicate Plain(records: seq<seq<string>>, d: char) {
    forall i :: 0 <= i < |records| ==>
      records[i] != [""] && forall j :: 0 <= j < |records[i]| ==> !NeedsQuoting(records[i][j], d)
  }

  /** The writer adds no quotes of its own: records that need none are written as plain lines. */
  lemma {:induction false} PlainDocument(records: seq<seq<string>>, d: char)
    requires Plain(records, d)
    ensures Document(records, d) == Lines(records, d)
    decreases |records|
  {
    if |records| > 0 {
      var fs := records[0];
      assert QuoteAll(fs, d) == fs by {
        forall j | 0 <= j < |fs| ensures QuoteAll(fs, d)[j] == fs[j] { }
      }
      assert Plain(records[1..], d) by {
        forall i | 0 <= i < |records| - 1 ensures records[1..][i] == records[i + 1] { }
      }
      PlainDocument(records[1..], d);
    }
  }

  // ---------------------------------------------------------------------
  // Shape of the output
  // ---------------------------------------------------------------------

  /** Reading the output back gives one header record and one record per row, each as wide as the header. */
  lemma RecordCount(dados: seq<Row>, nomes: seq<string>, delimitador: string, separadorDecimal: string, floatText: FloatText)
    requires ToCsvString(dados, nomes, delimitador, separadorDecimal, floatText).Success?
    requires Unambiguous(delimitador[0])
    ensures var records := ReadTable(ToCsvString(dados, nomes, delimitador, separadorDecimal, floatText).value, delimitador[0]);
            && records.Some? && |records.value| == |dados| + 1 && records.value[0] == nomes
            && forall i :: 1 <= i < |records.value| ==> |records.value[i]| == |nomes|
  {
  }

  lemma {:induction false} EscapeWithoutQuotes(f: string)
    requires '"' !in f
    ensures Escape(f) == f
    decreases |f|
  {
    if |f| > 0 {
      assert f[0] in f;
      assert forall c :: c in f[1..] ==> c in f;
      EscapeWithoutQuotes(f[1..]);
      assert [f[0]] + f[1..] == f;
    }
  }

  /**
   * When no column name needs quoting, the output starts with the names
   * joined by the delimiter and a CRLF (a lone empty name is written `""`).
   */
  lemma HeaderLine(dados: seq<Row>, nomes: seq<string>, delimitador: string, separadorDecimal: string, floatText: FloatText)
    requires ToCsvString(dados, nomes, delimitador, separadorDecimal, floatText).Success?
    requires forall j :: 0 <= j < |nomes| ==> !NeedsQuoting(nomes[j], delimitador[0])
    requires nomes != [""]
    ensures JoinFields(nomes, delimitador[0]) + Crlf <= ToCsvString(dados, nomes, delimitador, separadorDecimal, floatText).value
  {
    WrittenDocument(dados, nomes, delimitador, separadorDecimal, floatText);
    HeaderOfDocument(Records(dados, nomes, separadorDecimal, floatText), delimitador[0]);
  }

  lemma HeaderOfDocument(records: seq<seq<string>>, d: char)
    requires |records| > 0 && records[0] != [""]
    requires forall j :: 0 <= j < |records[0]| ==> !NeedsQuoting(records[0][j], d)
    ensures JoinFields(records[0], d) + Crlf <= Document(records, d)
  {
    var names := records[0];
    assert QuoteAll(names, d) == names by {
      forall j | 0 <= j < |names| ensures QuoteAll(names, d)[j] == names[j] { }
    }
    assert Document(records, d) == (JoinFields(names, d) + Crlf) + Document(records[1..], d);
  }

  /** When the header and the rendered fields need no quoting, the output is the plain lines of the records. */
  lemma PlainOutput(dados: seq<Row>, nomes: seq<string>, delimitador: string, separadorDecimal: string, floatText: FloatText)
    requires ToCsvString(dados, nomes, delimitador, separadorDecimal, floatText).Success?
    requires Plain(Records(dados, nomes, separadorDecimal, floatText), delimitador[0])
    ensures ToCsvString(dados, nomes, delimitador, separadorDecimal, floatText).value ==
              Lines(Records(dados, nomes, separadorDecimal, floatText), delimitador[0])
  {
    WrittenDocument(dados, nomes, delimitador, separadorDecimal, floatText);
    PlainDocument(Records(dados, nomes, separadorDecimal, floatText), delimitador[0]);
  }

  /** A successful serialisation is the document of the records. */
  lemma WrittenDocument(dados: seq<Row>, nomes: seq<string>, delimitador: string, separadorDecimal: string, floatText: FloatText)
    requires ToCsvString(dados, nomes, delimitador, separadorDecimal, floatText).Success?
    ensures |delimitador| == 1
    ensures ToCsvString(dados, nomes, delimitador, separadorDecimal, floatText).value ==
              Document(Records(dados, nomes, separadorDecimal, floatText), delimitador[0])
  {
  }

  /**
   * A float field is quoted exactly when its substituted text holds the
   * delimiter (its text form and the separator holding no quote or line
   * break), and it is then wrapped in quotes and otherwise unchanged.
   */
  lemma FloatFieldQuoting(x: real, sep: string, d: char, floatText: FloatText)
    requires '"' !in floatText(x) && '\r' !in floatText(x) && '\n' !in floatText(x)
    requires '"' !in sep && '\r' !in sep && '\n' !in sep
    ensures var text := Render(Float(x), sep, floatText);
            && (NeedsQuoting(text, d) <==> d in text)
            && QuoteField(text, d) == (if d in text then "\"" + text + "\"" else text)
  {
    var text := Render(Float(x), sep, floatText);
    assert '"' !in text && '\r' !in text && '\n' !in text;
    EscapeWithoutQuotes(text);
  }

  /**
   * A separator holding a double quote makes every float with a `.` in its
   * text a quoted field, delimiter or not: 1.5 with the separator `"` becomes
   * the field `1"5`, written as `"1""5"`.
   */
  lemma QuoteSeparatorForcesQuoting(floatText: FloatText, d: char)
    requires floatText(1.5) == "1.5" && d != '1' && d != '5' && d != '"'
    ensures Render(Float(1.5), "\"", floatText) == "1\"5"
    ensures d !in Render(Float(1.5), "\"", floatText)
    ensures QuoteField(Render(Float(1.5), "\"", floatText), d) == "\"" + "1\"\"5" + "\""
  {
    QuoteForDot();
    EscapeOneQuote();
    assert d !in "1\"5";
  }

  /** Escaping 1"5 doubles its one quote. */
  lemma EscapeOneQuote()
    ensures Escape("1\"5") == "1\"\"5"
  {
    assert "1\"5"[1..] == "\"5";
    assert "\"5"[1..] == "5";
  }

  /** The separator `"` turns the text 1.5 into 1"5. */
  lemma QuoteForDot()
    ensures ReplaceDots("1.5", "\"") == "1\"5"
  {
    ReplaceDotsConcat("1", ".5", "\"");
    assert "1" + ".5" == "1.5";
    assert ReplaceDots(".5", "\"") == "\"" + ReplaceDots("5", "\"");
  }

  /** With `.` as the separator a float's text form is kept as it is. */
  lemma PointSeparatorKeepsText(s: string)
    ensures ReplaceDots(s, ".") == s
  {
    var r := ReplaceDots(s, ".");
    assert forall i :: 0 <= i < |s| ==> r[i] == s[i];
  }

  /** 123.45 with a comma separator gives the field 123,45. */
  lemma DecimalCommaExample(floatText: FloatText, text: string)
    requires text == "123.45" && floatText(123.45) == text
    ensures Render(Float(123.45), ",", floatText) == "123,45"
  {
    var r := ReplaceDots(text, ",");
    assert forall i :: 0 <= i < |r| ==> r[i] == "123,45"[i];
  }

  /**
   * Under the default delimiter `,`, 123.45 with a comma separator holds the
   * delimiter, so it is written between quotes.
   */
  lemma DecimalCommaWritten(floatText: FloatText)
    requires floatText(123.45) == "123.45"
    ensures QuoteField(Render(Float(123.45), ",", floatText), ',') == "\"" + "123,45" + "\""
  {
    DecimalCommaExample(floatText, "123.45");
    CommaFieldQuoted(Render(Float(123.45), ",", floatText));
  }

  /** The field text 123,45 holds the delimiter `,` and no quote. */
  lemma CommaFieldQuoted(f: string)
    requires f == "123,45"
    ensures QuoteField(f, ',') == "\"" + "123,45" + "\""
  {
    assert f[3] == ',';
    assert '"' !in f;
    QuotedWhenNeeded(f, ',');
  }

  /** A text field holding the delimiter `;` is quoted. */
  lemma SemicolonFieldQuoted(f: string)
    requires f == "Item B; com ponto-e-virgula"
    ensures QuoteField(f, ';') == "\"" + f + "\""
  {
    assert f[6] == ';';
    assert forall i :: 0 <= i < |f| ==> f[i] != '"';
    QuotedWhenNeeded(f, ';');
  }

  lemma QuotedWhenNeeded(f: string, d: char)
    requires NeedsQuoting(f, d) && '"' !in f
    ensures QuoteField(f, d) == "\"" + f + "\""
  {
    EscapeWithoutQuotes(f);
  }
}

=== FILE: generators.dfy ===
/**
 * The value producers. Each generator answers one request, "produce the next
 * value", with no argument. The regex and Gaussian generators only hold the
 * parameters they were built with; what they return comes from a foreign
 * random source, modelled here as the `Entropy` parameter. The linear
 * generator is a two-field state machine whose current value advances by its
 * step on every call.
 */
module Generators {
  import opened Models

  /** A produced value: text from a pattern, or a floating-point number. */
  datatype Value = Text(s: string) | Float(x: real)

  datatype Generator =
    | RegexGenerator(expressao: string)
    | GaussianGenerator(media: real, desvio: real)
    | LinearGenerator(valorAtual: real, incremento: real)
  {
    /** The configuration tag of the variant this generator serves. */
    function Kind(): (r: string) {
      match this
      case RegexGenerator(_) => RegexTag
      case GaussianGenerator(_, _) => GaussianTag
      case LinearGenerator(_, _) => LinearTag
    }
  }

  /**
   * The foreign random source: `xeger(p, t)` is the string the pattern
   * expander returns for pattern `p`, and `normal(mu, sigma, t)` the sample the
   * normal sampler returns, when the request is the t-th one of a run.
   */
  datatype Entropy = Entropy(xeger: (string, nat) -> string, normal: (real, real, nat) -> real)

  /**
   * The state of a run's random source: how many requests the run has served
   * so far. Every request to any generator is counted, so the position of a
   * request in the run decides what a random generator returns; the linear
   * generator ignores the samplers but still takes its turn.
   */
  datatype Source = Source(served: nat)
  {
    /** The source after one more request. */
    function Next(): (r: Source) {
      Source(served + 1)
    }
  }

  /**
   * Builds the generator of a configuration's own variant: every generator
   * copies its parameters from the configuration, and the linear one starts
   * at its initial value.
   */
  function FromConfig(c: GeneratorConfig): (g: Generator)
    ensures g.Kind() == c.Tag()
    ensures c.RegexConfig? ==> g.expressao == c.expressao
    ensures c.GaussianConfig? ==> g.media == c.media && g.desvio == c.desvioPadrao
    ensures c.LinearConfig? ==> g.valorAtual == c.valorInicial && g.incremento == c.incremento
  {
    match c
    case RegexConfig(p) => RegexGenerator(p)
    case GaussianConfig(mu, s) => GaussianGenerator(mu, s)
    case LinearConfig(v, d) => LinearGenerator(v, d)
  }

  /**
   * One request for a value: the value produced, the generator's state
   * afterwards, and the source after the request. The regex and Gaussian
   * generators never change; the linear one returns its current value and
   * moves it on by its step, which itself never changes.
   */
  function Produce(g: Generator, e: Entropy, src: Source): (r: (Value, Generator, Source))
    ensures r.0.Text? <==> g.RegexGenerator?
    ensures !g.LinearGenerator? ==> r.1 == g
    ensures g.LinearGenerator? ==> r.0 == Float(g.valorAtual)
    ensures g.LinearGenerator? ==> r.1.LinearGenerator? && r.1.incremento == g.incremento
    ensures g.LinearGenerator? ==> r.1.valorAtual - g.valorAtual == g.incremento
    ensures r.2.served == src.served + 1
  {
    match g
    case RegexGenerator(p) => (Text(e.xeger(p, src.served)), g, src.Next())
    case GaussianGenerator(mu, s) => (Float(e.normal(mu, s, src.served)), g, src.Next())
    case LinearGenerator(v, d) => (Float(v), LinearGenerator(v + d, d), src.Next())
  }

  // ---------------------------------------------------------------------
  // Closed forms: what the k-th request returns, and the state after n
  // ---------------------------------------------------------------------

  /** The state of `g` after `n` requests. */
  function Advance(g: Generator, n: nat): (r: Generator) {
    match g
    case LinearGenerator(v, d) => LinearGenerator(v + (n as real) * d, d)
    case _ => g
  }

  /** The value the k-th request (counting from 0) to a fresh `g` returns, when it is request `t` of the run. */
  function Output(g: Generator, e: Entropy, k: nat, t: nat): (v: Value) {
    match g
    case RegexGenerator(p) => Text(e.xeger(p, t))
    case GaussianGenerator(mu, s) => Float(e.normal(mu, s, t))
    case LinearGenerator(v, d) => Float(v + (k as real) * d)
  }

  /** A request to `g` advanced by k answers with the k-th value and advances it by one more. */
  lemma ProduceAdvanced(g: Generator, e: Entropy, src: Source, k: nat)
    ensures Produce(Advance(g, k), e, src) == (Output(g, e, k, src.served), Advance(g, k + 1), src.Next())
  {
    if g.LinearGenerator? {
      var v, d := g.valorAtual, g.incremento;
      assert ((k + 1) as real) == (k as real) + 1.0;
      assert (k as real) * d + d == ((k + 1) as real) * d;
      assert Advance(g, k + 1) == LinearGenerator(v + (k as real) * d + d, d);
    }
  }

  /** The values, final state and final source of `n` successive requests to one generator. */
  function Run(g: Generator, e: Entropy, src: Source, n: nat): (r: (seq<Value>, Generator, Source))
    ensures |r.0| == n
    decreases n
  {
    if n == 0 then ([], g, src)
    else
      var (v, next, src') := Produce(g, e, src);
      var (vs, last, srcLast) := Run(next, e, src', n - 1);
      ([v] + vs, last, srcLast)
  }

  /**
   * Successive requests follow the closed forms: the k-th returns
   * `Output(g, e, k, t)` with t the source's count at that request (for a
   * linear generator, its initial value plus k steps); after n requests the
   * state is `Advance(g, n)` and the source has served n more requests.
   */
  lemma {:induction false} RunClosedForm(g: Generator, e: Entropy, src: Source, n: nat)
    ensures Run(g, e, src, n).1 == Advance(g, n)
    ensures Run(g, e, src, n).2 == Source(src.served + n)
    ensures forall k :: 0 <= k < n ==> Run(g, e, src, n).0[k] == Output(g, e, k, src.served + k)
    decreases n
  {
    if n > 0 {
      ProduceAdvanced(g, e, src, 0);
      assert Advance(g, 0) == g by {
        if g.LinearGenerator? { assert (0 as real) * g.incremento == 0.0; }
      }
      var next := Advance(g, 1);
      RunClosedForm(next, e, src.Next(), n - 1);
      AdvanceTwice(g, 1, n - 1);
      forall k | 1 <= k < n
        ensures Run(g, e, src, n).0[k] == Output(g, e, k, src.served + k)
      {
        OutputAdvanced(g, e, 1, k - 1, src.served + k);
      }
    }
  }

  lemma AdvanceTwice(g: Generator, a: nat, b: nat)
    ensures Advance(Advance(g, a), b) == Advance(g, a + b)
  {
    if g.LinearGenerator? {
      assert (a as real) * g.incremento + (b as real) * g.incremento == ((a + b) as real) * g.incremento;
    }
  }

  lemma OutputAdvanced(g: Generator, e: Entropy, a: nat, k: nat, t: nat)
    ensures Output(Advance(g, a), e, k, t) == Output(g, e, a + k, t)
  {
    if g.LinearGenerator? {
      assert (a as real) * g.incremento + (k as real) * g.incremento == ((a + k) as real) * g.incremento;
    }
  }

  /** A linear generator yields the arithmetic progression of its start and step, and keeps its step. */
  lemma LinearProgression(start: real, step: real, e: Entropy, src: Source, n: nat)
    ensures forall k :: 0 <= k < n ==> Run(LinearGenerator(start, step), e, src, n).0[k] == Float(start + (k as real) * step)
    ensures Run(LinearGenerator(start, step), e, src, n).1 == LinearGenerator(start + (n as real) * step, step)
  {
    RunClosedForm(LinearGenerator(start, step), e, src, n);
  }

  /** Starting at 10 with step 2, three requests give 10, 12 and 14. */
  lemma LinearFromTenByTwo(e: Entropy, src: Source)
    ensures Run(LinearGenerator(10.0, 2.0), e, src, 3).0 == [Float(10.0), Float(12.0), Float(14.0)]
  {
    LinearProgression(10.0, 2.0, e, src, 3);
  }

  /** The regex and Gaussian generators keep the parameters they were built with across any number of requests. */
  lemma OpaqueGeneratorsKeepParameters(c: GeneratorConfig, e: Entropy, src: Source, n: nat)
    requires !c.LinearConfig?
    ensures Run(FromConfig(c), e, src, n).1 == FromConfig(c)
  {
    RunClosedForm(FromConfig(c), e, src, n);
  }
}

=== FILE: models.dfy ===
/**
 * The configuration model: the raw, untyped table description a caller
 * submits, the validated configuration it becomes, and the validation that
 * turns one into the other, collecting every violated constraint (one error
 * per field, each with the location of the offending field).
 */
module Models {
  import opened Wrappers

  // ---------------------------------------------------------------------
  // Validated configuration
  // ---------------------------------------------------------------------

  /** The three generator configurations, discriminated by `tipoGerador`. */
  datatype GeneratorConfig =
    | RegexConfig(expressao: string)
    | GaussianConfig(media: real, desvioPadrao: real)
    | LinearConfig(valorInicial: real, incremento: real)
  {
    /** The value of the discriminator field that selects this variant. */
    function Tag(): (r: string) {
      match this
      case RegexConfig(_) => RegexTag
      case GaussianConfig(_, _) => GaussianTag
      case LinearConfig(_, _) => LinearTag
    }
  }

  const RegexTag: string := "regex"
  const GaussianTag: string := "gaussiano"
  const LinearTag: string := "linear"

  /** One output column: its header name and how its values are produced. */
  datatype ColumnConfig = ColumnConfig(nome: string, configGerador: GeneratorConfig)

  /** The whole table: row count, ordered columns and output formatting. */
  datatype TableConfig = TableConfig(
    numLinhas: int,
    colunas: seq<ColumnConfig>,
    delimitador: string,
    separadorDecimal: string)

  const DefaultDelimiter: string := ","
  const DefaultDecimalSeparator: string := "."

  /**
   * Whether a pattern compiles under the host regular-expression engine:
   * None when it does, Some(reason) with the engine's complaint otherwise.
   */
  type RegexCheck = string -> Option<string>

  /** The invariants every validated configuration satisfies. */
  predicate WellFormed(c: TableConfig, check: RegexCheck) {
    && c.numLinhas > 0
    && |c.colunas| > 0
    && forall i :: 0 <= i < |c.colunas| ==> GeneratorWellFormed(c.colunas[i].configGerador, check)
  }

  predicate GeneratorWellFormed(g: GeneratorConfig, check: RegexCheck) {
    match g
    case RegexConfig(p) => check(p).None?
    case GaussianConfig(_, s) => s > 0.0
    case LinearConfig(_, _) => true
  }

  // ---------------------------------------------------------------------
  // Raw input: every field may be missing
  // ---------------------------------------------------------------------

  datatype RawGenerator = RawGenerator(
    tipoGerador: Option<string>,
    expressao: Option<string>,
    media: Option<real>,
    desvioPadrao: Option<real>,
    valorInicial: Option<real>,
    incremento: Option<real>)

  datatype RawColumn = RawColumn(nome: Option<string>, configGerador: Option<RawGenerator>)

  datatype RawTable = RawTable(
    numLinhas: Option<int>,
    colunas: Option<seq<RawColumn>>,
    delimitador: Option<string>,
    separadorDecimal: Option<string>)

  // ---------------------------------------------------------------------
  // Errors
  // ---------------------------------------------------------------------

  /** One step of an error location: a field name or a list position. */
  datatype PathItem = Field(name: string) | Index(i: nat)

  datatype ErrorKind =
    | Missing                      // a required field is absent
    | NotPositive                  // a positive number was required
    | TagNotFound                  // the discriminator is absent
    | TagInvalid(tag: string)      // the discriminator names no variant
    | RegexSyntax(reason: string)  // the pattern does not compile
    | NoColumns                    // the column list is empty

  datatype ConfigError = ConfigError(loc: seq<PathItem>, kind: ErrorKind)

  /** The human-readable text reported for each kind of error. */
  function Message(k: ErrorKind): (m: string) {
    match k
    case Missing => "Field required"
    case NotPositive => "Input should be greater than 0"
    case TagNotFound => "Unable to extract tag using discriminator 'tipoGerador'"
    case TagInvalid(t) =>
      "Input tag '" + t + "' found using 'tipoGerador' does not match any of the expected tags: 'regex', 'gaussiano', 'linear'"
    case RegexSyntax(reason) => RegexSyntaxText + ": " + reason
    case NoColumns => NoColumnsText
  }

  const RegexSyntaxText: string := "Value error, Expressão regular com sintaxe inválida"
  const NoColumnsText: string := "Value error, O arquivo CSV deve ter pelo menos uma coluna."

  /** `errs` holds an error located at or below `prefix`. */
  predicate HasErrorAt(errs: seq<ConfigError>, prefix: seq<PathItem>) {
    exists k :: 0 <= k < |errs| && prefix <= errs[k].loc
  }

  /** `errs` relocated below `prefix`. */
  function Under(prefix: seq<PathItem>, errs: seq<ConfigError>): (r: seq<ConfigError>)
    ensures |r| == |errs|
    ensures forall k :: 0 <= k < |r| ==> r[k] == ConfigError(prefix + errs[k].loc, errs[k].kind)
  {
    seq(|errs|, k requires 0 <= k < |errs| => ConfigError(prefix + errs[k].loc, errs[k].kind))
  }

  function ErrorsOf<T>(r: Result<T, seq<ConfigError>>): (errs: seq<ConfigError>) {
    match r
    case Success(_) => []
    case Failure(es) => es
  }

  // ---------------------------------------------------------------------
  // Declarative acceptance: what a raw input must look like to be accepted
  // ---------------------------------------------------------------------

  predicate GeneratorAcceptable(g: RawGenerator, check: RegexCheck) {
    || (g.tipoGerador == Some(RegexTag) && g.expressao.Some? && check(g.expressao.value).None?)
    || (g.tipoGerador == Some(GaussianTag) && g.media.Some? && g.desvioPadrao.Some? && g.desvioPadrao.value > 0.0)
    || (g.tipoGerador == Some(LinearTag) && g.valorInicial.Some? && g.incremento.Some?)
  }

  predicate ColumnAcceptable(c: RawColumn, check: RegexCheck) {
    c.nome.Some? && c.configGerador.Some? && GeneratorAcceptable(c.configGerador.value, check)
  }

  predicate TableAcceptable(t: RawTable, check: RegexCheck) {
    && t.numLinhas.Some? && t.numLinhas.value > 0
    && t.colunas.Some? && |t.colunas.value| > 0
    && forall i :: 0 <= i < |t.colunas.value| ==> ColumnAcceptable(t.colunas.value[i], check)
  }

  /** A validated generator configuration carries exactly the raw fields of its variant. */
  predicate GeneratorAgrees(g: RawGenerator, c: GeneratorConfig) {
    && g.tipoGerador == Some(c.Tag())
    && match c
       case RegexConfig(p) => g.expressao == Some(p)
       case GaussianConfig(mu, s) => g.media == Some(mu) && g.desvioPadrao == Some(s)
       case LinearConfig(v, d) => g.valorInicial == Some(v) && g.incremento == Some(d)
  }

  predicate ColumnAgrees(raw: RawColumn, c: ColumnConfig) {
    raw.nome == Some(c.nome) && raw.configGerador.Some? && GeneratorAgrees(raw.configGerador.value, c.configGerador)
  }

  /** A validated table carries the raw fields, with the documented defaults for absent ones. */
  predicate TableAgrees(raw: RawTable, c: TableConfig) {
    && raw.numLinhas == Some(c.numLinhas)
    && raw.colunas.Some? && |raw.colunas.value| == |c.colunas|
    && (forall i :: 0 <= i < |c.colunas| ==> ColumnAgrees(raw.colunas.value[i], c.colunas[i]))
    && c.delimitador == (if raw.delimitador.Some? then raw.delimitador.value else DefaultDelimiter)
    && c.separadorDecimal == (if raw.separadorDecimal.Some? then raw.separadorDecimal.value else DefaultDecimalSeparator)
  }

  // ---------------------------------------------------------------------
  // Validation
  // ---------------------------------------------------------------------

  /** Errors of a regex configuration, located below `configGerador`. */
  function RegexErrors(g: RawGenerator, check: RegexCheck): (r: seq<ConfigError>) {
    var loc := [Field(RegexTag), Field("expressao")];
    match g.expressao
    case None => [ConfigError(loc, Missing)]
    case Some(p) =>
      match check(p)
      case None => []
      case Some(reason) => [ConfigError(loc, RegexSyntax(reason))]
  }

  function GaussianErrors(g: RawGenerator): (r: seq<ConfigError>) {
    (if g.media.None? then [ConfigError([Field(GaussianTag), Field("media")], Missing)] else [])
    + (match g.desvioPadrao
       case None => [ConfigError([Field(GaussianTag), Field("desvioPadrao")], Missing)]
       case Some(s) => if s <= 0.0 then [ConfigError([Field(GaussianTag), Field("desvioPadrao")], NotPositive)] else [])
  }

  function LinearErrors(g: RawGenerator): (r: seq<ConfigError>) {
    (if g.valorInicial.None? then [ConfigError([Field(LinearTag), Field("valorInicial")], Missing)] else [])
    + (if g.incremento.None? then [ConfigError([Field(LinearTag), Field("incremento")], Missing)] else [])
  }

  /**
   * Validates one generator configuration. The discriminator selects which
   * variant's fields are checked; fields of the other variants are ignored.
   * Error locations are relative to the `configGerador` field.
   */
  function ValidateGenerator(g: RawGenerator, check: RegexCheck): (r: Result<GeneratorConfig, seq<ConfigError>>)
    ensures r.Success? <==> GeneratorAcceptable(g, check)
    ensures r.Success? ==> GeneratorAgrees(g, r.value) && GeneratorWellFormed(r.value, check)
    ensures r.Failure? ==> |r.error| > 0
    ensures g.tipoGerador.None? ==> r == Failure([ConfigError([], TagNotFound)])
    ensures g.tipoGerador.Some? && g.tipoGerador.value !in {RegexTag, GaussianTag, LinearTag} ==>
              r == Failure([ConfigError([], TagInvalid(g.tipoGerador.value))])
    ensures g.tipoGerador == Some(RegexTag) && g.expressao.Some? && check(g.expressao.value).Some? ==>
              r == Failure([ConfigError([Field(RegexTag), Field("expressao")], RegexSyntax(check(g.expressao.value).value))])
    ensures g.tipoGerador == Some(GaussianTag) && g.desvioPadrao.Some? && g.desvioPadrao.value <= 0.0 ==>
              r.Failure? && ConfigError([Field(GaussianTag), Field("desvioPadrao")], NotPositive) in r.error
  {
    match g.tipoGerador
    case None => Failure([ConfigError([], TagNotFound)])
    case Some(t) =>
      if t == RegexTag then
        var es := RegexErrors(g, check);
        if es == [] then Success(RegexConfig(g.expressao.value)) else Failure(es)
      else if t == GaussianTag then
        var es := GaussianErrors(g);
        if es == [] then Success(GaussianConfig(g.media.value, g.desvioPadrao.value)) else Failure(es)
      else if t == LinearTag then
        var es := LinearErrors(g);
        if es == [] then Success(LinearConfig(g.valorInicial.value, g.incremento.value)) else Failure(es)
      else
        Failure([ConfigError([], TagInvalid(t))])
  }

  /** Validates one column; error locations are relative to the column. The name is not checked. */
  function ValidateColumn(c: RawColumn, check: RegexCheck): (r: Result<ColumnConfig, seq<ConfigError>>)
    ensures r.Success? <==> ColumnAcceptable(c, check)
    ensures r.Success? ==> ColumnAgrees(c, r.value) && GeneratorWellFormed(r.value.configGerador, check)
    ensures r.Failure? ==> |r.error| > 0
  {
    var nameErrors := if c.nome.None? then [ConfigError([Field("nome")], Missing)] else [];
    var generator :=
      match c.configGerador
      case None => Failure([ConfigError([Field("configGerador")], Missing)])
      case Some(g) =>
        match ValidateGenerator(g, check)
        case Success(gc) => Success(gc)
        case Failure(es) => Failure(Under([Field("configGerador")], es));
    if nameErrors == [] && generator.Success? then Success(ColumnConfig(c.nome.value, generator.value))
    else Failure(nameErrors + ErrorsOf(generator))
  }

  /** The location of the i-th entry of the column list. */
  function ColumnLoc(i: nat): (r: seq<PathItem>) {
    [Field("colunas"), Index(i)]
  }

  /** Every one of the first n columns the declarative rules reject has at least one error located below it. */
  predicate ReportsBadColumns(errs: seq<ConfigError>, cols: seq<RawColumn>, n: nat, check: RegexCheck)
    requires n <= |cols|
  {
    forall i :: 0 <= i < n && !ColumnAcceptable(cols[i], check) ==> HasErrorAt(errs, ColumnLoc(i))
  }

  /** Every error is located below one of the first n columns that the declarative rules reject. */
  predicate BlamesBadColumns(errs: seq<ConfigError>, cols: seq<RawColumn>, n: nat, check: RegexCheck)
    requires n <= |cols|
  {
    forall k :: 0 <= k < |errs| ==>
      exists i :: 0 <= i < n && !ColumnAcceptable(cols[i], check) && ColumnLoc(i) <= errs[k].loc
  }

  /**
   * Validates the first n columns of a list, keeping the errors of all of
   * them, each located below its own column.
   */
  function ValidatePrefix(cols: seq<RawColumn>, n: nat, check: RegexCheck): (r: Result<seq<ColumnConfig>, seq<ConfigError>>)
    requires n <= |cols|
    decreases n
    ensures r.Success? <==> forall i :: 0 <= i < n ==> ColumnAcceptable(cols[i], check)
    ensures r.Success? ==> |r.value| == n
    ensures r.Success? ==> forall i :: 0 <= i < n ==>
              ColumnAgrees(cols[i], r.value[i]) && GeneratorWellFormed(r.value[i].configGerador, check)
    ensures r.Failure? ==> ReportsBadColumns(r.error, cols, n, check) && BlamesBadColumns(r.error, cols, n, check)
  {
    if n == 0 then Success([])
    else
      var init := ValidatePrefix(cols, n - 1, check);
      var last := ValidateColumn(cols[n - 1], check);
      if init.Success? && last.Success? then
        AppendAccepted(cols, n, check, init.value, last.value);
        Success(init.value + [last.value])
      else
        var errs := ErrorsOf(init) + Under(ColumnLoc(n - 1), ErrorsOf(last));
        RefusedStep(cols, n, check, init, last);
        Failure(errs)
  }

  /** Validates every column of a list. */
  function ValidateColumns(cols: seq<RawColumn>, check: RegexCheck): (r: Result<seq<ColumnConfig>, seq<ConfigError>>)
    ensures r.Success? <==> forall i :: 0 <= i < |cols| ==> ColumnAcceptable(cols[i], check)
    ensures r.Success? ==> |r.value| == |cols|
    ensures r.Success? ==> forall i :: 0 <= i < |cols| ==>
              ColumnAgrees(cols[i], r.value[i]) && GeneratorWellFormed(r.value[i].configGerador, check)
    ensures r.Failure? ==> ReportsBadColumns(r.error, cols, |cols|, check) && BlamesBadColumns(r.error, cols, |cols|, check)
  {
    ValidatePrefix(cols, |cols|, check)
  }

  /** The accepted first n-1 columns and an accepted n-th column together agree with the first n. */
  lemma AppendAccepted(cols: seq<RawColumn>, n: nat, check: RegexCheck, init: seq<ColumnConfig>, last: ColumnConfig)
    requires 0 < n <= |cols| && |init| == n - 1
    requires forall i :: 0 <= i < n - 1 ==> ColumnAgrees(cols[i], init[i]) && GeneratorWellFormed(init[i].configGerador, check)
    requires ColumnAgrees(cols[n - 1], last) && GeneratorWellFormed(last.configGerador, check)
    ensures |init + [last]| == n
    ensures forall i :: 0 <= i < n ==>
              ColumnAgrees(cols[i], (init + [last])[i]) && GeneratorWellFormed((init + [last])[i].configGerador, check)
  {
    forall i | 0 <= i < n
      ensures ColumnAgrees(cols[i], (init + [last])[i]) && GeneratorWellFormed((init + [last])[i].configGerador, check)
    {
      if i < n - 1 {
        assert (init + [last])[i] == init[i];
      }
    }
  }

  /**
   * One refusing step of `ValidatePrefix`: given what the validations of the
   * first n-1 columns and of the n-th promise, one of the first n columns is
   * refused and the combined errors report and blame exactly the refused ones.
   */
  lemma RefusedStep(cols: seq<RawColumn>, n: nat, check: RegexCheck,
                    init: Result<seq<ColumnConfig>, seq<ConfigError>>, last: Result<ColumnConfig, seq<ConfigError>>)
    requires 0 < n <= |cols|
    requires init.Success? <==> forall i :: 0 <= i < n - 1 ==> ColumnAcceptable(cols[i], check)
    requires init.Failure? ==> ReportsBadColumns(init.error, cols, n - 1, check) && BlamesBadColumns(init.error, cols, n - 1, check)
    requires last.Success? <==> ColumnAcceptable(cols[n - 1], check)
    requires last.Failure? ==> |last.error| > 0
    requires init.Failure? || last.Failure?
    ensures !forall i :: 0 <= i < n ==> ColumnAcceptable(cols[i], check)
    ensures var errs := ErrorsOf(init) + Under(ColumnLoc(n - 1), ErrorsOf(last));
            ReportsBadColumns(errs, cols, n, check) && BlamesBadColumns(errs, cols, n, check)
  {
    if init.Success? {
      assert ReportsBadColumns([], cols, n - 1, check);
      assert BlamesBadColumns([], cols, n - 1, check);
    }
    AppendReports(cols, n, check, ErrorsOf(init), ErrorsOf(last));
    AppendBlames(cols, n, check, ErrorsOf(init), ErrorsOf(last));
  }

  lemma AppendReports(cols: seq<RawColumn>, n: nat, check: RegexCheck, initErrors: seq<ConfigError>, lastErrors: seq<ConfigError>)
    requires 0 < n <= |cols|
    requires ReportsBadColumns(initErrors, cols, n - 1, check)
    requires ColumnAcceptable(cols[n - 1], check) <==> lastErrors == []
    ensures ReportsBadColumns(initErrors + Under(ColumnLoc(n - 1), lastErrors), cols, n, check)
  {
    var moved := Under(ColumnLoc(n - 1), lastErrors);
    var errs := initErrors + moved;
    forall i | 0 <= i < n && !ColumnAcceptable(cols[i], check)
      ensures HasErrorAt(errs, ColumnLoc(i))
    {
      if i == n - 1 {
        assert errs[|initErrors|] == moved[0];
        assert moved[0].loc == ColumnLoc(n - 1) + lastErrors[0].loc;
      } else {
        assert HasErrorAt(initErrors, ColumnLoc(i));
        var k :| 0 <= k < |initErrors| && ColumnLoc(i) <= initErrors[k].loc;
        assert errs[k] == initErrors[k];
      }
    }
  }

  lemma AppendBlames(cols: seq<RawColumn>, n: nat, check: RegexCheck, initErrors: seq<ConfigError>, lastErrors: seq<ConfigError>)
    requires 0 < n <= |cols|
    requires BlamesBadColumns(initErrors, cols, n - 1, check)
    requires ColumnAcceptable(cols[n - 1], check) <==> lastErrors == []
    ensures BlamesBadColumns(initErrors + Under(ColumnLoc(n - 1), lastErrors), cols, n, check)
  {
    var moved := Under(ColumnLoc(n - 1), lastErrors);
    var errs := initErrors + moved;
    forall k | 0 <= k < |errs|
      ensures exists i :: 0 <= i < n && !ColumnAcceptable(cols[i], check) && ColumnLoc(i) <= errs[k].loc
    {
      if k < |initErrors| {
        var i :| 0 <= i < n - 1 && !ColumnAcceptable(cols[i], check) && ColumnLoc(i) <= initErrors[k].loc;
        assert errs[k] == initErrors[k];
      } else {
        assert errs[k] == moved[k - |initErrors|];
        assert errs[k].loc == ColumnLoc(n - 1) + lastErrors[k - |initErrors|].loc;
      }
    }
  }

  /** Validates the `colunas` field: present, every entry valid, and non-empty. */
  function ValidateColumnList(cols: Option<seq<RawColumn>>, check: RegexCheck): (r: Result<seq<ColumnConfig>, seq<ConfigError>>)
    ensures r.Success? <==> cols.Some? && |cols.value| > 0 && forall i :: 0 <= i < |cols.value| ==> ColumnAcceptable(cols.value[i], check)
    ensures r.Success? ==> |r.value| == |cols.value| && forall i :: 0 <= i < |r.value| ==>
              ColumnAgrees(cols.value[i], r.value[i]) && GeneratorWellFormed(r.value[i].configGerador, check)
    ensures r.Failure? ==> |r.error| > 0
    ensures r.Failure? && cols.Some? ==> ReportsBadColumns(r.error, cols.value, |cols.value|, check)
    ensures cols.None? ==> r == Failure([ConfigError([Field("colunas")], Missing)])
    ensures cols == Some([]) ==> r == Failure([ConfigError([Field("colunas")], NoColumns)])
    ensures r.Failure? && cols.Some? && |cols.value| > 0 ==> BlamesBadColumns(r.error, cols.value, |cols.value|, check)
  {
    match cols
    case None => Failure([ConfigError([Field("colunas")], Missing)])
    case Some(cs) =>
      match ValidateColumns(cs, check)
      case Failure(es) => Failure(es)
      case Success(vs) =>
        if |cs| == 0 then Failure([ConfigError([Field("colunas")], NoColumns)]) else Success(vs)
  }

  function RowCountErrors(n: Option<int>): (r: seq<ConfigError>) {
    match n
    case None => [ConfigError([Field("numLinhas")], Missing)]
    case Some(v) => if v <= 0 then [ConfigError([Field("numLinhas")], NotPositive)] else []
  }

  /**
   * Builds a table configuration from raw input, or reports every constraint
   * the input violates: a missing or non-positive row count, a missing or
   * empty column list, and each column's own errors. Absent formatting
   * options take their defaults.
   */
  function Validate(raw: RawTable, check: RegexCheck): (r: Result<TableConfig, seq<ConfigError>>)
    ensures r.Success? <==> TableAcceptable(raw, check)
    ensures r.Success? ==> TableAgrees(raw, r.value) && WellFormed(r.value, check)
    ensures r.Failure? ==> |r.error| > 0
    ensures raw.numLinhas.None? ==> r.Failure? && ConfigError([Field("numLinhas")], Missing) in r.error
    ensures raw.numLinhas.Some? && raw.numLinhas.value <= 0 ==>
              r.Failure? && ConfigError([Field("numLinhas")], NotPositive) in r.error
    ensures raw.colunas.None? ==> r.Failure? && ConfigError([Field("colunas")], Missing) in r.error
    ensures raw.colunas == Some([]) ==> r.Failure? && ConfigError([Field("colunas")], NoColumns) in r.error
    ensures raw.colunas.Some? ==> forall i :: 0 <= i < |raw.colunas.value| && !ColumnAcceptable(raw.colunas.value[i], check) ==>
              r.Failure? && HasErrorAt(r.error, ColumnLoc(i))
    ensures r.Failure? ==> forall k :: 0 <= k < |r.error| ==> Justified(r.error[k], raw, check)
  {
    var countErrors := RowCountErrors(raw.numLinhas);
    var columns := ValidateColumnList(raw.colunas, check);
    if countErrors == [] && columns.Success? then
      Success(TableConfig(raw.numLinhas.value, columns.value,
                          raw.delimitador.GetOr(DefaultDelimiter),
                          raw.separadorDecimal.GetOr(DefaultDecimalSeparator)))
    else
      var errs := countErrors + ErrorsOf(columns);
      ShiftReports(countErrors, ErrorsOf(columns), raw.colunas, check);
      AllJustified(raw, check);
      Failure(errs)
  }

  /**
   * An error the validation has grounds for: a missing or non-positive
   * count, a missing or empty column list, or any error located below a
   * column that the declarative rules refuse.
   */
  predicate Justified(e: ConfigError, raw: RawTable, check: RegexCheck) {
    || (e == ConfigError([Field("numLinhas")], Missing) && raw.numLinhas.None?)
    || (e == ConfigError([Field("numLinhas")], NotPositive) && raw.numLinhas.Some? && raw.numLinhas.value <= 0)
    || (e == ConfigError([Field("colunas")], Missing) && raw.colunas.None?)
    || (e == ConfigError([Field("colunas")], NoColumns) && raw.colunas == Some([]))
    || (raw.colunas.Some? &&
        exists i :: 0 <= i < |raw.colunas.value| && !ColumnAcceptable(raw.colunas.value[i], check) && ColumnLoc(i) <= e.loc)
  }

  /** An error reported at the count itself means the count is missing or not positive. */
  lemma CountErrorGrounds(raw: RawTable, check: RegexCheck, k: nat)
    requires Validate(raw, check).Failure? && k < |Validate(raw, check).error|
    requires Validate(raw, check).error[k].loc == [Field("numLinhas")]
    ensures raw.numLinhas.None? || raw.numLinhas.value <= 0
  {
    var e := Validate(raw, check).error[k];
    assert Justified(e, raw, check);
  }

  /** An error reported at the column list itself means the list is missing or empty. */
  lemma ListErrorGrounds(raw: RawTable, check: RegexCheck, k: nat)
    requires Validate(raw, check).Failure? && k < |Validate(raw, check).error|
    requires Validate(raw, check).error[k].loc == [Field("colunas")]
    ensures raw.colunas.None? || raw.colunas == Some([])
  {
    var e := Validate(raw, check).error[k];
    assert Justified(e, raw, check);
  }

  /** Every error of the count and of the column list has grounds. */
  lemma AllJustified(raw: RawTable, check: RegexCheck)
    ensures var errs := RowCountErrors(raw.numLinhas) + ErrorsOf(ValidateColumnList(raw.colunas, check));
            forall k :: 0 <= k < |errs| ==> Justified(errs[k], raw, check)
  {
    var front := RowCountErrors(raw.numLinhas);
    var back := ErrorsOf(ValidateColumnList(raw.colunas, check));
    var errs := front + back;
    forall k | 0 <= k < |errs|
      ensures Justified(errs[k], raw, check)
    {
      if k < |front| {
        assert errs[k] == front[k];
      } else {
        assert errs[k] == back[k - |front|];
        if raw.colunas.Some? && |raw.colunas.value| > 0 {
          var cols := raw.colunas.value;
          var i :| 0 <= i < |cols| && !ColumnAcceptable(cols[i], check) && ColumnLoc(i) <= back[k - |front|].loc;
        }
      }
    }
  }

  /** Errors reported below a column stay reported after other errors are put in front. */
  lemma ShiftReports(front: seq<ConfigError>, errs: seq<ConfigError>, cols: Option<seq<RawColumn>>, check: RegexCheck)
    requires cols.Some? ==> ReportsBadColumns(errs, cols.value, |cols.value|, check)
    ensures cols.Some? ==> ReportsBadColumns(front + errs, cols.value, |cols.value|, check)
  {
    if cols.Some? {
      forall i | 0 <= i < |cols.value| && !ColumnAcceptable(cols.value[i], check)
        ensures HasErrorAt(front + errs, ColumnLoc(i))
      {
        var k :| 0 <= k < |errs| && ColumnLoc(i) <= errs[k].loc;
        assert (front + errs)[|front| + k] == errs[k];
      }
    }
  }
}

=== FILE: pipeline.dfy ===
/**
 * The whole flow a caller composes, configuration in and delimited text out,
 * and the scenarios the repository's tests describe, stated over the model.
 */
module Pipeline {
  import opened Wrappers
  import opened Models
  import opened Generators
  import opened Services
  import opened CsvReader
  import opened CsvWriter

  datatype PipelineError =
    | InvalidConfig(errors: seq<ConfigError>)
    | FactoryFailed(cause: FactoryError)
    | CsvFailed(reason: CsvError)

  /**
   * Validates the raw configuration, builds the system with `factory`,
   * produces the rows and serialises them with the configured delimiter and
   * decimal separator. Generated rows hold exactly the column names, so
   * serialisation fails only on a delimiter that is not one character.
   */
  method GenerateCsv(raw: RawTable, check: RegexCheck, factory: Factory, e: Entropy, floatText: FloatText)
    returns (r: Result<string, PipelineError>)
    ensures !TableAcceptable(raw, check) ==> r == Failure(InvalidConfig(Validate(raw, check).error))
    ensures TableAcceptable(raw, check) && !FactoryAcceptsAll(Validate(raw, check).value.colunas, factory) ==>
              r.Failure? && r.error.FactoryFailed?
    ensures TableAcceptable(raw, check) && FactoryAcceptsAll(Validate(raw, check).value.colunas, factory) ==>
              (r.Success? <==> |Validate(raw, check).value.delimitador| == 1)
    ensures r.Failure? && r.error.CsvFailed? ==> r.error.reason == DelimiterNotOneChar
    ensures r.Success? ==>
              var c := Validate(raw, check).value;
              var sys := NewSystemWith(c, factory).value;
              Unambiguous(c.delimitador[0]) ==>
                ReadTable(r.value, c.delimitador[0]) == Some(Records(ExpectedRows(sys, e), sys.nomesColunas, c.separadorDecimal, floatText))
    ensures r.Success? ==>
              var c := Validate(raw, check).value;
              var sys := NewSystemWith(c, factory).value;
              r.value == ToCsvString(ExpectedRows(sys, e), sys.nomesColunas, c.delimitador, c.separadorDecimal, floatText).value
  {
    var validated := Validate(raw, check);
    if validated.Failure? {
      return Failure(InvalidConfig(validated.error));
    }
    var c := validated.value;
    var built := NewSystemWith(c, factory);
    if built.Failure? {
      return Failure(FactoryFailed(built.error));
    }
    var sys := built.value;
    var rows, _, _ := GenerateRows(sys, e);
    assert forall i :: 0 <= i < |rows| ==> ExtraKeys(rows[i], sys.nomesColunas) == {};
    var text := ToCsvString(rows, sys.nomesColunas, c.delimitador, c.separadorDecimal, floatText);
    match text
    case Failure(err) => r := Failure(CsvFailed(err));
    case Success(s) => r := Success(s);
  }

  // ---------------------------------------------------------------------
  // Configuration scenarios
  // ---------------------------------------------------------------------

  function Column(nome: string, g: RawGenerator): (r: RawColumn) {
    RawColumn(Some(nome), Some(g))
  }

  function RawRegex(p: string): (r: RawGenerator) {
    RawGenerator(Some(RegexTag), Some(p), None, None, None, None)
  }

  function RawGaussian(mu: real, s: real): (r: RawGenerator) {
    RawGenerator(Some(GaussianTag), None, Some(mu), Some(s), None, None)
  }

  function RawLinear(v: real, d: real): (r: RawGenerator) {
    RawGenerator(Some(LinearTag), None, None, None, Some(v), Some(d))
  }

  /**
   * A table whose only column has a name and a generator configuration that
   * is refused reports exactly that configuration's errors, each located
   * below `colunas.0.configGerador`.
   */
  lemma SingleRefusedGenerator(raw: RawTable, check: RegexCheck)
    requires raw.numLinhas.Some? && raw.numLinhas.value > 0
    requires raw.colunas.Some? && |raw.colunas.value| == 1
    requires raw.colunas.value[0].nome.Some? && raw.colunas.value[0].configGerador.Some?
    requires !GeneratorAcceptable(raw.colunas.value[0].configGerador.value, check)
    ensures Validate(raw, check) ==
              Failure(Under(ColumnLoc(0) + [Field("configGerador")], ValidateGenerator(raw.colunas.value[0].configGerador.value, check).error))
  {
    var cols := raw.colunas.value;
    var ge := ValidateGenerator(cols[0].configGerador.value, check).error;
    RefusedGeneratorColumn(cols[0], check);
    SingleRefusedColumn(cols, check);
    RefusedColumnsOnly(raw, check);
    UnderUnder(ColumnLoc(0), [Field("configGerador")], ge);
  }

  /** Locating errors below b and then below a is locating them below a + b. */
  lemma UnderUnder(a: seq<PathItem>, b: seq<PathItem>, errs: seq<ConfigError>)
    ensures Under(a, Under(b, errs)) == Under(a + b, errs)
  {
    var l, r := Under(a, Under(b, errs)), Under(a + b, errs);
    forall k | 0 <= k < |errs|
      ensures l[k] == r[k]
    {
      assert a + (b + errs[k].loc) == (a + b) + errs[k].loc;
    }
  }

  /** A named column whose generator configuration is refused reports exactly that configuration's errors, below `configGerador`. */
  lemma RefusedGeneratorColumn(c: RawColumn, check: RegexCheck)
    requires c.nome.Some? && c.configGerador.Some? && !GeneratorAcceptable(c.configGerador.value, check)
    ensures ValidateColumn(c, check) == Failure(Under([Field("configGerador")], ValidateGenerator(c.configGerador.value, check).error))
  {
    var ge := ValidateGenerator(c.configGerador.value, check).error;
    assert [] + Under([Field("configGerador")], ge) == Under([Field("configGerador")], ge);
  }

  /** A one-column list whose column is refused reports that column's errors, below the column's position. */
  lemma SingleRefusedColumn(cols: seq<RawColumn>, check: RegexCheck)
    requires |cols| == 1 && !ColumnAcceptable(cols[0], check)
    ensures ValidateColumns(cols, check) == Failure(Under(ColumnLoc(0), ValidateColumn(cols[0], check).error))
  {
    LastColumnStep(cols, check);
    NoColumnsBefore(cols, check);
    var u := Under(ColumnLoc(0), ValidateColumn(cols[0], check).error);
    assert [] + u == u;
  }

  /**
   * One unfolding of the column validation for a one-column list. Stated
   * on its own so that the caller's proof does not have to unfold the
   * validation itself.
   */
  lemma LastColumnStep(cols: seq<RawColumn>, check: RegexCheck)
    requires |cols| == 1 && !ColumnAcceptable(cols[0], check)
    ensures ValidateColumns(cols, check) ==
              Failure(ErrorsOf(ValidatePrefix(cols, 0, check)) + Under(ColumnLoc(0), ErrorsOf(ValidateColumn(cols[0], check))))
  {
  }

  /** The prefix of no columns validates to no configurations; a separate step for the same reason. */
  lemma NoColumnsBefore(cols: seq<RawColumn>, check: RegexCheck)
    ensures ValidatePrefix(cols, 0, check) == Success([])
  {
  }

  /** With a positive count, a refused column list's errors are the table's only errors. */
  lemma RefusedColumnsOnly(raw: RawTable, check: RegexCheck)
    requires raw.numLinhas.Some? && raw.numLinhas.value > 0
    requires raw.colunas.Some? && ValidateColumns(raw.colunas.value, check).Failure?
    ensures Validate(raw, check) == Failure(ValidateColumns(raw.colunas.value, check).error)
  {
    ColumnListFailure(raw.colunas, check);
    ListErrorsOnly(raw, check, ValidateColumns(raw.colunas.value, check).error);
  }

  /** With a count that has no errors, the column list's errors are the table's errors. */
  lemma ListErrorsOnly(raw: RawTable, check: RegexCheck, es: seq<ConfigError>)
    requires RowCountErrors(raw.numLinhas) == []
    requires ValidateColumnList(raw.colunas, check) == Failure(es)
    ensures Validate(raw, check) == Failure(es)
  {
    assert [] + es == es;
  }

  /** A present column list that is refused reports the errors of its columns. */
  lemma ColumnListFailure(cols: Option<seq<RawColumn>>, check: RegexCheck)
    requires cols.Some? && ValidateColumns(cols.value, check).Failure?
    ensures ValidateColumnList(cols, check) == ValidateColumns(cols.value, check)
  {
    var cs := cols.value;
    assert cols == Some(cs);
    var es := ValidateColumns(cs, check).error;
    assert ValidateColumns(cs, check) == Failure(es);
  }

  /** A pattern that does not compile is refused, with the error under its own field and the syntax message. */
  lemma UncompilablePatternRefused(raw: RawTable, p: string, check: RegexCheck)
    requires raw == RawTable(Some(10), Some([Column("TESTE_FALHA", RawRegex(p))]), None, None)
    requires check(p).Some?
    ensures var r := Validate(raw, check);
            && r.Failure?
            && r.error == [ConfigError(ColumnLoc(0) + [Field("configGerador"), Field(RegexTag), Field("expressao")], RegexSyntax(check(p).value))]
            && RegexSyntaxText <= Message(RegexSyntax(check(p).value))
  {
    var e := ConfigError([Field(RegexTag), Field("expressao")], RegexSyntax(check(p).value));
    assert ValidateGenerator(raw.colunas.value[0].configGerador.value, check).error == [e];
    SingleRefusedGenerator(raw, check);
    UnderOne(ColumnLoc(0) + [Field("configGerador")], e);
    Relocated(ColumnLoc(0), Field("configGerador"), Field(RegexTag), Field("expressao"));
    SyntaxMessagePrefix(check(p).value);
  }

  /** A pattern that compiles is accepted and kept as given. */
  lemma CompilablePatternAccepted(p: string, check: RegexCheck)
    requires check(p).None?
    ensures ValidateGenerator(RawRegex(p), check) == Success(RegexConfig(p))
  {
  }

  /** A standard deviation that is not positive (-5.0, 0.0, ...) is refused with the positivity message. */
  lemma NonPositiveDeviationRefused(raw: RawTable, mu: real, s: real, check: RegexCheck)
    requires raw == RawTable(Some(10), Some([Column("TESTE_FALHA_2", RawGaussian(mu, s))]), None, None)
    requires s <= 0.0
    ensures var r := Validate(raw, check);
            && r.Failure?
            && r.error == [ConfigError(ColumnLoc(0) + [Field("configGerador"), Field(GaussianTag), Field("desvioPadrao")], NotPositive)]
            && Message(NotPositive) == "Input should be greater than 0"
  {
    var e := ConfigError([Field(GaussianTag), Field("desvioPadrao")], NotPositive);
    assert GaussianErrors(RawGaussian(mu, s)) == [e];
    assert ValidateGenerator(raw.colunas.value[0].configGerador.value, check).error == [e];
    SingleRefusedGenerator(raw, check);
    UnderOne(ColumnLoc(0) + [Field("configGerador")], e);
    Relocated(ColumnLoc(0), Field("configGerador"), Field(GaussianTag), Field("desvioPadrao"));
  }

  /** A syntax error's message starts with the syntax text, whatever the compiler's reason. */
  lemma SyntaxMessagePrefix(reason: string)
    ensures RegexSyntaxText <= Message(RegexSyntax(reason))
  {
    PrefixOfConcat(RegexSyntaxText, ": " + reason);
  }

  /** A rewriting step: a string is a prefix of itself followed by anything. */
  lemma PrefixOfConcat(a: string, b: string)
    ensures a <= a + b
  {
  }

  /** A rewriting step: an error location below a one-item path and a two-item field path is one three-item path. */
  lemma Relocated(prefix: seq<PathItem>, a: PathItem, b: PathItem, c: PathItem)
    ensures prefix + [a] + [b, c] == prefix + [a, b, c]
  {
  }

  /** Locating a single error below a prefix prepends the prefix to its location. */
  lemma UnderOne(prefix: seq<PathItem>, e: ConfigError)
    ensures Under(prefix, [e]) == [ConfigError(prefix + e.loc, e.kind)]
  {
    assert Under(prefix, [e])[0] == ConfigError(prefix + e.loc, e.kind);
  }

  /** A linear configuration is accepted for every initial value and step. */
  lemma AnyLinearAccepted(v: real, d: real, check: RegexCheck)
    ensures ValidateGenerator(RawLinear(v, d), check) == Success(LinearConfig(v, d))
  {
  }

  /** A discriminator naming no variant is refused, never defaulted. */
  lemma UnknownTagRefused(g: RawGenerator, check: RegexCheck)
    requires g.tipoGerador.Some? && g.tipoGerador.value !in {RegexTag, GaussianTag, LinearTag}
    ensures ValidateGenerator(g, check) == Failure([ConfigError([], TagInvalid(g.tipoGerador.value))])
    ensures !ColumnAcceptable(RawColumn(Some(""), Some(g)), check)
  {
  }

  /** An empty column list is refused with the one-column message. */
  lemma EmptyColumnsRefused(n: Option<int>, check: RegexCheck)
    ensures var r := Validate(RawTable(n, Some([]), None, None), check);
            r.Failure? && ConfigError([Field("colunas")], NoColumns) in r.error
    ensures Message(NoColumns) == "Value error, O arquivo CSV deve ter pelo menos uma coluna."
  {
  }

  /** Absent formatting options take the comma delimiter and the point separator. */
  lemma FormattingDefaults(raw: RawTable, check: RegexCheck)
    requires TableAcceptable(raw, check) && raw.delimitador.None? && raw.separadorDecimal.None?
    ensures Validate(raw, check).value.delimitador == ","
    ensures Validate(raw, check).value.separadorDecimal == "."
  {
  }

  /** Two tables that differ only in their column names are accepted or refused alike: names are not checked. */
  lemma ColumnNamesNotValidated(raw: RawTable, other: RawTable, check: RegexCheck)
    requires raw.numLinhas == other.numLinhas
    requires raw.colunas.Some? && other.colunas.Some? && |raw.colunas.value| == |other.colunas.value|
    requires forall i :: 0 <= i < |raw.colunas.value| ==>
               raw.colunas.value[i].configGerador == other.colunas.value[i].configGerador &&
               raw.colunas.value[i].nome.Some? && other.colunas.value[i].nome.Some?
    ensures Validate(raw, check).Success? == Validate(other, check).Success?
  {
    assert forall i :: 0 <= i < |raw.colunas.value| ==>
             (ColumnAcceptable(raw.colunas.value[i], check) <==> ColumnAcceptable(other.colunas.value[i], check));
  }

  /** A name repeated over two columns is accepted, the empty name included. */
  lemma RepeatedNameAccepted(nome: string, g: RawGenerator, check: RegexCheck)
    requires GeneratorAcceptable(g, check)
    ensures Validate(RawTable(Some(1), Some([Column(nome, g), Column(nome, g)]), None, None), check).Success?
  {
    var cols := [Column(nome, g), Column(nome, g)];
    assert forall i :: 0 <= i < |cols| ==> ColumnAcceptable(cols[i], check);
  }

  // ---------------------------------------------------------------------
  // Factory scenarios
  // ---------------------------------------------------------------------

  /**
   * As written, the factory builds no linear generator: every linear
   * configuration is refused with the unknown-kind error, so every table with
   * a linear column fails to build, although the tests expect a linear
   * generator.
   */
  lemma LinearRefusedAsWritten(v: real, d: real)
    ensures GetGenerator(LinearConfig(v, d)) == Failure(UnknownGeneratorKind("linear"))
    ensures FactoryMessage(UnknownGeneratorKind("linear")) == "Tipo de gerador desconhecido: linear"
    ensures GetGeneratorIntended(LinearConfig(v, d)) == Success(LinearGenerator(v, d))
  {
  }

  /** With the intended factory, a linear column gets a linear generator starting at its initial value. */
  lemma IntendedFactoryBuildsLinear(c: TableConfig, i: nat)
    requires i < |c.colunas| && c.colunas[i].configGerador.LinearConfig?
    ensures NewSystem(c).Failure?
    ensures NewSystemIntended(c).value.geradores[i] ==
              LinearGenerator(c.colunas[i].configGerador.valorInicial, c.colunas[i].configGerador.incremento)
  {
  }

  // ---------------------------------------------------------------------
  // Orchestration scenarios
  // ---------------------------------------------------------------------

  /** Of two columns with the same name, the later one's value is kept in every row. */
  lemma LaterDuplicateWins(name: string, g0: Generator, g1: Generator, e: Entropy, i: nat)
    ensures ExpectedRow([name, name], [g0, g1], e, i) == map[name := Output(g1, e, i, Slot(i, 1, 2))]
  {
    var row := ExpectedRow([name, name], [g0, g1], e, i);
    assert IsLastOccurrence([name, name], 1);
  }

  /**
   * The linear column of the end-to-end test: five rows of 100, 110, ..., 140
   * under the name SEQUENCIA, once the system is built by the intended factory.
   */
  lemma SequenceRows(c: TableConfig, e: Entropy)
    requires c == TableConfig(5, [ColumnConfig("SEQUENCIA", LinearConfig(100.0, 10.0))], ",", ".")
    ensures var rows := ExpectedRows(NewSystemIntended(c).value, e);
            && |rows| == 5
            && forall i :: 0 <= i < 5 ==> rows[i] == map["SEQUENCIA" := Float(100.0 + (i as real) * 10.0)]
  {
    var sys := NewSystemIntended(c).value;
    assert sys.geradores == [LinearGenerator(100.0, 10.0)];
    assert sys.nomesColunas == ["SEQUENCIA"];
    forall i | 0 <= i < 5
      ensures ExpectedRows(sys, e)[i] == map["SEQUENCIA" := Float(100.0 + (i as real) * 10.0)]
    {
      assert IsLastOccurrence(sys.nomesColunas, 0);
    }
  }

  /**
   * The end-to-end linear test: five rows of a column SEQUENCIA starting at
   * 100 with step 10, default delimiter and separator. As written the build
   * fails on the linear column; with the intended factory the output reads
   * back as the header line and the lines 100.0 to 140.0, given that the float
   * text form writes those values as `100.0` ... `140.0`.
   */
  lemma SequenceEndToEnd(raw: RawTable, check: RegexCheck, e: Entropy, floatText: FloatText)
    requires raw == RawTable(Some(5), Some([Column("SEQUENCIA", RawLinear(100.0, 10.0))]), None, None)
    requires floatText(100.0) == "100.0" && floatText(110.0) == "110.0" && floatText(120.0) == "120.0"
    requires floatText(130.0) == "130.0" && floatText(140.0) == "140.0"
    ensures Validate(raw, check).Success?
    ensures NewSystem(Validate(raw, check).value) == Failure(UnknownGeneratorKind(LinearTag))
    ensures var c := Validate(raw, check).value;
            var sys := NewSystemIntended(c).value;
            var out := ToCsvString(ExpectedRows(sys, e), sys.nomesColunas, c.delimitador, c.separadorDecimal, floatText);
            && out.Success?
            && ReadTable(out.value, ',') == Some(SequenceTable())
            && out.value == SequenceOutput()
  {
    var c := SequenceConfig(raw, check);
    SequenceWritten(c, e, floatText);
  }

  /** The intended system of the linear test writes exactly the six expected lines, which read back as its records. */
  lemma SequenceWritten(c: TableConfig, e: Entropy, floatText: FloatText)
    requires c == TableConfig(5, [ColumnConfig("SEQUENCIA", LinearConfig(100.0, 10.0))], ",", ".")
    requires floatText(100.0) == "100.0" && floatText(110.0) == "110.0" && floatText(120.0) == "120.0"
    requires floatText(130.0) == "130.0" && floatText(140.0) == "140.0"
    ensures var sys := NewSystemIntended(c).value;
            var out := ToCsvString(ExpectedRows(sys, e), sys.nomesColunas, ",", ".", floatText);
            && out == Success(SequenceOutput())
            && ReadTable(out.value, ',') == Some(SequenceTable())
  {
    var sys := NewSystemIntended(c).value;
    assert sys.nomesColunas == ["SEQUENCIA"];
    SequenceRecords(c, e, floatText);
    GeneratedRowsSerialise(sys, e, ",", ".", floatText);
    WrittenDocument(ExpectedRows(sys, e), sys.nomesColunas, ",", ".", floatText);
    SequenceText();
  }

  /** The records of the linear test: the header, then the five values as text. */
  function SequenceTable(): (r: seq<seq<string>>) {
    [["SEQUENCIA"], ["100.0"], ["110.0"], ["120.0"], ["130.0"], ["140.0"]]
  }

  /** A record of one field that needs no quoting is written as the bare field and CRLF. */
  lemma BareLine(f: string, rest: seq<seq<string>>, d: char)
    requires f != "" && !NeedsQuoting(f, d)
    ensures Document([[f]] + rest, d) == (f + Crlf) + Document(rest, d)
  {
    assert ([[f]] + rest)[1..] == rest;
    assert QuoteAll([f], d) == [f];
  }

  /** The values of the linear test, as text, each with its line end. */
  function ValueLines(): (r: string) {
    ("100.0" + Crlf) + (("110.0" + Crlf) + (("120.0" + Crlf) + (("130.0" + Crlf) + ("140.0" + Crlf))))
  }

  /** The output text of the linear test: the header line, then the values 100.0 to 140.0, one per line. */
  function SequenceOutput(): (r: string) {
    ("SEQUENCIA" + Crlf) + ValueLines()
  }

  /** No value field of the linear test holds the delimiter, a quote or a line break. */
  lemma ValuesBare()
    ensures !NeedsQuoting("100.0", ',') && !NeedsQuoting("110.0", ',') && !NeedsQuoting("120.0", ',')
    ensures !NeedsQuoting("130.0", ',') && !NeedsQuoting("140.0", ',')
  {
  }

  /** The five value records of the linear test are written as five bare lines. */
  lemma ValuesText()
    ensures Document(SequenceTable()[1..], ',') == ValueLines()
  {
    ValuesBare();
    assert SequenceTable()[1..] == [["100.0"], ["110.0"], ["120.0"], ["130.0"], ["140.0"]];
    BareLine("140.0", [], ',');
    BareLine("130.0", [["140.0"]], ',');
    BareLine("120.0", [["130.0"], ["140.0"]], ',');
    BareLine("110.0", [["120.0"], ["130.0"], ["140.0"]], ',');
    BareLine("100.0", [["110.0"], ["120.0"], ["130.0"], ["140.0"]], ',');
    assert [["140.0"]] + [] == [["140.0"]];
  }

  /** The records of the linear test are written as six bare lines. */
  lemma SequenceText()
    ensures Document(SequenceTable(), ',') == SequenceOutput()
  {
    assert !NeedsQuoting("SEQUENCIA", ',');
    ValuesText();
    assert SequenceTable() == [["SEQUENCIA"]] + SequenceTable()[1..];
    BareLine("SEQUENCIA", SequenceTable()[1..], ',');
  }

  /**
   * The rows a system generates always serialise with a one-character
   * delimiter: their keys are exactly the column names, so no row has extra
   * keys, and with an unambiguous delimiter the output reads back as the
   * header and the rendered rows.
   */
  lemma GeneratedRowsSerialise(sys: System, e: Entropy, delimitador: string, separadorDecimal: string, floatText: FloatText)
    requires |sys.geradores| == |sys.nomesColunas|
    requires |delimitador| == 1
    ensures var out := ToCsvString(ExpectedRows(sys, e), sys.nomesColunas, delimitador, separadorDecimal, floatText);
            && out.Success?
            && (Unambiguous(delimitador[0]) ==>
                  ReadTable(out.value, delimitador[0]) == Some(Records(ExpectedRows(sys, e), sys.nomesColunas, separadorDecimal, floatText)))
  {
    var rows := ExpectedRows(sys, e);
    assert forall i :: 0 <= i < |rows| ==> ExtraKeys(rows[i], sys.nomesColunas) == {};
  }

  /** The linear test's table validates to five rows of one linear column, with the default delimiter and separator. */
  lemma SequenceConfig(raw: RawTable, check: RegexCheck) returns (c: TableConfig)
    requires raw == RawTable(Some(5), Some([Column("SEQUENCIA", RawLinear(100.0, 10.0))]), None, None)
    ensures Validate(raw, check) == Success(c)
    ensures c == TableConfig(5, [ColumnConfig("SEQUENCIA", LinearConfig(100.0, 10.0))], ",", ".")
  {
    assert ColumnAcceptable(raw.colunas.value[0], check);
    c := Validate(raw, check).value;
  }

  /** The intended system of the linear test renders its header and the five values 100.0 to 140.0. */
  lemma SequenceRecords(c: TableConfig, e: Entropy, floatText: FloatText)
    requires c == TableConfig(5, [ColumnConfig("SEQUENCIA", LinearConfig(100.0, 10.0))], ",", ".")
    requires floatText(100.0) == "100.0" && floatText(110.0) == "110.0" && floatText(120.0) == "120.0"
    requires floatText(130.0) == "130.0" && floatText(140.0) == "140.0"
    ensures Records(ExpectedRows(NewSystemIntended(c).value, e), ["SEQUENCIA"], ".", floatText) == SequenceTable()
  {
    SequenceRows(c, e);
    var rows := ExpectedRows(NewSystemIntended(c).value, e);
    var recs := Records(rows, ["SEQUENCIA"], ".", floatText);
    forall k | 1 <= k < |recs|
      ensures recs[k] == [floatText(100.0 + ((k - 1) as real) * 10.0)]
    {
      assert recs[k] == RowFields(rows[k - 1], ["SEQUENCIA"], ".", floatText);
      SequenceField(rows[k - 1], 100.0 + ((k - 1) as real) * 10.0, floatText);
    }
  }

  /** A row holding only the value x under SEQUENCIA is written, with "." as separator, as x's text form. */
  lemma SequenceField(row: Row, x: real, floatText: FloatText)
    requires row == map["SEQUENCIA" := Float(x)]
    ensures RowFields(row, ["SEQUENCIA"], ".", floatText) == [floatText(x)]
  {
    PointSeparatorKeepsText(floatText(x));
  }
}

=== FILE: services.dfy ===
/**
 * The generator factory and the orchestrator. The factory maps a column's
 * generator configuration to a generator; the orchestrator builds one
 * generator per column, then produces the rows, calling every column's
 * generator once per row, row after row and column after column.
 */
module Services {
  import opened Wrappers
  import opened Models
  import opened Generators

  /** The factory's refusal of a configuration whose tag it does not handle. */
  datatype FactoryError = UnknownGeneratorKind(tag: string)

  function FactoryMessage(e: FactoryError): (r: string) {
    "Tipo de gerador desconhecido: " + e.tag
  }

  type Factory = GeneratorConfig -> Result<Generator, FactoryError>

  /**
   * The factory as written: it builds regex and Gaussian generators and
   * refuses every other tag, the linear one included.
   */
  function GetGenerator(c: GeneratorConfig): (r: Result<Generator, FactoryError>)
    ensures r.Success? <==> c.Tag() == RegexTag || c.Tag() == GaussianTag
    ensures r.Success? ==> r.value == FromConfig(c)
    ensures r.Failure? ==> r.error == UnknownGeneratorKind(c.Tag())
  {
    if c.Tag() == RegexTag then Success(RegexGenerator(c.expressao))
    else if c.Tag() == GaussianTag then Success(GaussianGenerator(c.media, c.desvioPadrao))
    else Failure(UnknownGeneratorKind(c.Tag()))
  }

  /** The factory the tests expect: every variant gets the generator of its own kind. */
  function GetGeneratorIntended(c: GeneratorConfig): (r: Result<Generator, FactoryError>)
    ensures r.Success?
    ensures r.value.Kind() == c.Tag()
    ensures r.value == FromConfig(c)
  {
    match c
    case RegexConfig(p) => Success(RegexGenerator(p))
    case GaussianConfig(mu, s) => Success(GaussianGenerator(mu, s))
    case LinearConfig(v, d) => Success(LinearGenerator(v, d))
  }

  // ---------------------------------------------------------------------
  // The orchestrating system
  // ---------------------------------------------------------------------

  /** A configuration with one generator and one name per column, in column order. */
  datatype System = System(config: TableConfig, geradores: seq<Generator>, nomesColunas: seq<string>)

  /** `factory` accepts every column's configuration. */
  predicate FactoryAcceptsAll(cols: seq<ColumnConfig>, factory: Factory) {
    forall i :: 0 <= i < |cols| ==> factory(cols[i].configGerador).Success?
  }

  /**
   * One generator per column, built in column order; the first column the
   * factory refuses stops the construction with the factory's error.
   */
  function BuildGenerators(cols: seq<ColumnConfig>, factory: Factory): (r: Result<seq<Generator>, FactoryError>)
    decreases |cols|
    ensures r.Success? <==> FactoryAcceptsAll(cols, factory)
    ensures r.Success? ==> |r.value| == |cols|
    ensures r.Success? ==> forall i :: 0 <= i < |cols| ==> r.value[i] == factory(cols[i].configGerador).value
    ensures r.Failure? ==>
              exists i :: 0 <= i < |cols| && factory(cols[i].configGerador) == Failure(r.error) && FactoryAcceptsAll(cols[..i], factory)
  {
    if |cols| == 0 then Success([])
    else
      match factory(cols[0].configGerador)
      case Failure(e) =>
        assert cols[..0] == [];
        Failure(e)
      case Success(g) =>
        match BuildGenerators(cols[1..], factory)
        case Failure(e) =>
          var j :| 0 <= j < |cols| - 1 && factory(cols[1..][j].configGerador) == Failure(e) &&
                   FactoryAcceptsAll(cols[1..][..j], factory);
          assert cols[..j + 1] == [cols[0]] + cols[1..][..j];
          Failure(e)
        case Success(gs) =>
          assert forall i :: 1 <= i < |cols| ==> cols[i] == cols[1..][i - 1];
          Success([g] + gs)
  }

  /** The column names, in column order. */
  function ColumnNames(cols: seq<ColumnConfig>): (names: seq<string>)
    ensures |names| == |cols|
    ensures forall i :: 0 <= i < |cols| ==> names[i] == cols[i].nome
  {
    seq(|cols|, i requires 0 <= i < |cols| => cols[i].nome)
  }

  /**
   * Builds the system of a configuration with the given factory: one
   * generator per column in column order, and the column names in the same
   * order; fails with the error of the first column the factory refuses.
   */
  function NewSystemWith(config: TableConfig, factory: Factory): (r: Result<System, FactoryError>)
    ensures r.Success? <==> FactoryAcceptsAll(config.colunas, factory)
    ensures r.Success? ==> r.value.config == config
    ensures r.Success? ==> |r.value.geradores| == |config.colunas| == |r.value.nomesColunas|
    ensures r.Success? ==> forall i :: 0 <= i < |config.colunas| ==>
              r.value.geradores[i] == factory(config.colunas[i].configGerador).value &&
              r.value.nomesColunas[i] == config.colunas[i].nome
    ensures r.Failure? ==>
              exists i :: 0 <= i < |config.colunas| && factory(config.colunas[i].configGerador) == Failure(r.error) && FactoryAcceptsAll(config.colunas[..i], factory)
  {
    match BuildGenerators(config.colunas, factory)
    case Failure(e) => Failure(e)
    case Success(gs) => Success(System(config, gs, ColumnNames(config.colunas)))
  }

  /** The system as constructed by the code as written. */
  function NewSystem(config: TableConfig): (r: Result<System, FactoryError>)
    ensures r.Success? <==> forall i :: 0 <= i < |config.colunas| ==> !config.colunas[i].configGerador.LinearConfig?
    ensures r.Failure? ==> r.error == UnknownGeneratorKind(LinearTag)
  {
    NewSystemWith(config, GetGenerator)
  }

  /** The system as the tests expect it: every well-formed configuration gets one. */
  function NewSystemIntended(config: TableConfig): (r: Result<System, FactoryError>)
    ensures r.Success?
    ensures |r.value.geradores| == |config.colunas|
    ensures forall i :: 0 <= i < |config.colunas| ==> r.value.geradores[i] == FromConfig(config.colunas[i].configGerador)
  {
    NewSystemWith(config, GetGeneratorIntended)
  }

  // ---------------------------------------------------------------------
  // Row generation
  // ---------------------------------------------------------------------

  /** A produced row: column name to value. */
  type Row = map<string, Value>

  /** How many rows a configuration asks for: a count that is not positive asks for none. */
  function RowCount(config: TableConfig): (r: nat) {
    if config.numLinhas < 0 then 0 else config.numLinhas
  }

  /** The run-wide number of the request for column j of row i, with m columns. */
  function Slot(i: nat, j: nat, m: nat): (r: nat) {
    i * m + j
  }

  function NameSet(names: seq<string>): (r: set<string>) {
    set x | x in names
  }

  /** No column from k+1 up to (not including) j carries column k's name. */
  predicate LastBefore(names: seq<string>, k: nat, j: nat)
    requires k < j <= |names|
  {
    forall k' :: k < k' < j ==> names[k'] != names[k]
  }

  /** No later column than j carries column j's name. */
  predicate IsLastOccurrence(names: seq<string>, j: nat)
    requires j < |names|
  {
    LastBefore(names, j, |names|)
  }

  /** The position of the last column named `x`. */
  function LastIndexOf(names: seq<string>, x: string): (r: nat)
    requires x in names
    ensures r < |names| && names[r] == x && IsLastOccurrence(names, r)
  {
    if names[|names| - 1] == x then |names| - 1
    else LastIndexOf(names[..|names| - 1], x)
  }

  /**
   * Row i as the orchestrator must produce it: one entry per column name,
   * holding what the generator of the last column with that name returns as
   * its i-th value (earlier columns with the same name are overwritten).
   */
  function ExpectedRow(names: seq<string>, gens: seq<Generator>, e: Entropy, i: nat): (row: Row)
    requires |names| == |gens|
    ensures row.Keys == NameSet(names)
    ensures forall j :: 0 <= j < |names| && IsLastOccurrence(names, j) ==>
              row[names[j]] == Output(gens[j], e, i, Slot(i, j, |names|))
  {
    var row := map x | x in names :: Output(gens[LastIndexOf(names, x)], e, i, Slot(i, LastIndexOf(names, x), |names|));
    assert forall j :: 0 <= j < |names| && IsLastOccurrence(names, j) ==> LastIndexOf(names, names[j]) == j;
    row
  }

  /** All rows a run must produce. */
  function ExpectedRows(sys: System, e: Entropy): (rows: seq<Row>)
    requires |sys.geradores| == |sys.nomesColunas|
    ensures |rows| == RowCount(sys.config)
    ensures forall i :: 0 <= i < |rows| ==> rows[i].Keys == NameSet(sys.nomesColunas)
  {
    seq(RowCount(sys.config), i requires 0 <= i => ExpectedRow(sys.nomesColunas, sys.geradores, e, i))
  }

  /** After the first j columns of row i, the row holds their names and the last writer's values. */
  ghost predicate RowSoFar(row: Row, names: seq<string>, gens: seq<Generator>, e: Entropy, i: nat, j: nat)
    requires j <= |names| == |gens|
  {
    && row.Keys == (set k | 0 <= k < j :: names[k])
    && forall k :: 0 <= k < j && LastBefore(names, k, j) ==>
         names[k] in row && row[names[k]] == Output(gens[k], e, i, Slot(i, k, |names|))
  }

  lemma RowSoFarComplete(row: Row, names: seq<string>, gens: seq<Generator>, e: Entropy, i: nat)
    requires |names| == |gens|
    requires RowSoFar(row, names, gens, e, i, |names|)
    ensures row == ExpectedRow(names, gens, e, i)
  {
    var expected := ExpectedRow(names, gens, e, i);
    assert row.Keys == expected.Keys by {
      forall x | x in expected.Keys ensures x in row.Keys {
        var k := LastIndexOf(names, x);
      }
    }
    forall x | x in row ensures row[x] == expected[x] {
      var k := LastIndexOf(names, x);
      assert IsLastOccurrence(names, k);
    }
  }

  /** Storing column j's value extends the row built from the first j columns to the first j+1. */
  lemma RowSoFarStep(row: Row, names: seq<string>, gens: seq<Generator>, e: Entropy, i: nat, j: nat, v: Value)
    requires j < |names| == |gens|
    requires RowSoFar(row, names, gens, e, i, j)
    requires v == Output(gens[j], e, i, Slot(i, j, |names|))
    ensures RowSoFar(row[names[j] := v], names, gens, e, i, j + 1)
  {
    RowKeysStep(row.Keys, names, j);
    RowValuesStep(row, names, gens, e, i, j, v);
  }

  lemma RowKeysStep(keys: set<string>, names: seq<string>, j: nat)
    requires j < |names|
    requires keys == (set k | 0 <= k < j :: names[k])
    ensures keys + {names[j]} == (set k | 0 <= k < j + 1 :: names[k])
  {
  }

  lemma RowValuesStep(row: Row, names: seq<string>, gens: seq<Generator>, e: Entropy, i: nat, j: nat, v: Value)
    requires j < |names| == |gens|
    requires forall k :: 0 <= k < j && LastBefore(names, k, j) ==>
               names[k] in row && row[names[k]] == Output(gens[k], e, i, Slot(i, k, |names|))
    requires v == Output(gens[j], e, i, Slot(i, j, |names|))
    ensures forall k :: 0 <= k < j + 1 && LastBefore(names, k, j + 1) ==>
              names[k] in row[names[j] := v] && row[names[j] := v][names[k]] == Output(gens[k], e, i, Slot(i, k, |names|))
  {
    forall k | 0 <= k < j + 1 && LastBefore(names, k, j + 1)
      ensures names[k] in row[names[j] := v] && row[names[j] := v][names[k]] == Output(gens[k], e, i, Slot(i, k, |names|))
    {
      if k < j {
        assert names[j] != names[k];
      }
    }
  }

  /** Before any column is stored, the row is empty and so is the set of names so far. */
  lemma RowSoFarEmpty(names: seq<string>, gens: seq<Generator>, e: Entropy, i: nat)
    requires |names| == |gens|
    ensures RowSoFar(map[], names, gens, e, i, 0)
  {
  }

  /** Asks column j's generator for its value and stores it in the row. */
  method StoreColumn(names: seq<string>, start: seq<Generator>, row: Row, gens: seq<Generator>, e: Entropy, src: Source, i: nat, j: nat)
    returns (row': Row, gens': seq<Generator>, used: Source)
    requires j < |names| == |start| == |gens|
    requires gens[j] == Advance(start[j], i)
    requires src.served == Slot(i, j, |names|)
    requires RowSoFar(row, names, start, e, i, j)
    ensures RowSoFar(row', names, start, e, i, j + 1)
    ensures gens' == gens[j := Advance(start[j], i + 1)]
    ensures used.served == src.served + 1
  {
    ProduceAdvanced(start[j], e, src, i);
    var (v, after, next) := Produce(gens[j], e, src);
    RowSoFarStep(row, names, start, e, i, j, v);
    row' := row[names[j] := v];
    gens' := gens[j := after];
    used := next;
  }

  /**
   * Stores every column of row i, in column order: afterwards the row holds
   * the first |names| columns, every generator has served one more request,
   * and the source has served one request per column.
   */
  method FillRow(names: seq<string>, start: seq<Generator>, gens: seq<Generator>, e: Entropy, src: Source, i: nat)
    returns (row: Row, next: seq<Generator>, used: Source)
    requires |names| == |start| == |gens|
    requires src.served == Slot(i, 0, |names|)
    requires forall j :: 0 <= j < |gens| ==> gens[j] == Advance(start[j], i)
    ensures RowSoFar(row, names, start, e, i, |names|)
    ensures |next| == |gens|
    ensures forall j :: 0 <= j < |next| ==> next[j] == Advance(start[j], i + 1)
    ensures used.served == src.served + |names|
  {
    var m := |names|;
    row := map[];
    next := gens;
    used := src;
    var j := 0;
    RowSoFarEmpty(names, start, e, i);
    while j < m
      invariant 0 <= j <= m && |next| == m
      invariant forall k :: 0 <= k < j ==> next[k] == Advance(start[k], i + 1)
      invariant forall k :: j <= k < m ==> next[k] == Advance(start[k], i)
      invariant used.served == Slot(i, j, m)
      invariant RowSoFar(row, names, start, e, i, j)
    {
      row, next, used := StoreColumn(names, start, row, next, e, used, i, j);
      j := j + 1;
    }
  }

  /**
   * Produces row i: asks the generator of every column for one value, in
   * column order, and stores it under the column's name. `gens` are the
   * generators `start` after i requests each, and `src` has served the i
   * rows before this one.
   */
  method GenerateRow(names: seq<string>, start: seq<Generator>, gens: seq<Generator>, e: Entropy, src: Source, i: nat)
    returns (row: Row, next: seq<Generator>, used: Source)
    requires |names| == |start| == |gens|
    requires src.served == Slot(i, 0, |names|)
    requires forall j :: 0 <= j < |gens| ==> gens[j] == Advance(start[j], i)
    ensures row == ExpectedRow(names, start, e, i)
    ensures |next| == |gens|
    ensures forall j :: 0 <= j < |next| ==> next[j] == Advance(start[j], i + 1)
    ensures used.served == src.served + |names|
  {
    row, next, used := FillRow(names, start, gens, e, src, i);
    RowSoFarComplete(row, names, start, e, i);
  }

  /** Appending row i to the first i expected rows gives the first i+1. */
  lemma RowsExtended(rows: seq<Row>, row: Row, names: seq<string>, gens: seq<Generator>, e: Entropy, i: nat)
    requires |names| == |gens| && |rows| == i
    requires forall r :: 0 <= r < i ==> rows[r] == ExpectedRow(names, gens, e, r)
    requires row == ExpectedRow(names, gens, e, i)
    ensures forall r :: 0 <= r < i + 1 ==> (rows + [row])[r] == ExpectedRow(names, gens, e, r)
  {
    forall r | 0 <= r < i + 1
      ensures (rows + [row])[r] == ExpectedRow(names, gens, e, r)
    {
      if r < i {
        assert (rows + [row])[r] == rows[r];
      }
    }
  }

  /**
   * Produces the rows of a system: row by row, one value from every column's
   * generator, in column order, all drawing on one random source that starts
   * the run fresh. Returns the rows, the generators' states afterwards, and
   * the source at the end of the run.
   */
  method GenerateRows(sys: System, e: Entropy) returns (rows: seq<Row>, after: seq<Generator>, used: Source)
    requires |sys.geradores| == |sys.nomesColunas|
    ensures |rows| == RowCount(sys.config)
    ensures forall i :: 0 <= i < |rows| ==> rows[i].Keys == NameSet(sys.nomesColunas)
    ensures rows == ExpectedRows(sys, e)
    ensures |after| == |sys.geradores|
    ensures forall j :: 0 <= j < |after| ==> after[j] == Advance(sys.geradores[j], |rows|)
    ensures used.served == |rows| * |sys.geradores|
  {
    var names := sys.nomesColunas;
    var m := |names|;
    var n := RowCount(sys.config);
    var gens := sys.geradores;
    rows := [];
    used := Source(0);
    var i := 0;
    while i < n
      invariant 0 <= i <= n
      invariant |rows| == i && |gens| == m
      invariant forall j :: 0 <= j < m ==> gens[j] == Advance(sys.geradores[j], i)
      invariant forall r :: 0 <= r < i ==> rows[r] == ExpectedRow(names, sys.geradores, e, r)
      invariant used.served == i * m
    {
      var row, next, used' := GenerateRow(names, sys.geradores, gens, e, used, i);
      assert i * m + m == (i + 1) * m;
      RowsExtended(rows, row, names, sys.geradores, e, i);
      rows := rows + [row];
      gens := next;
      used := used';
      i := i + 1;
    }
    after := gens;
  }
}

=== FILE: wrappers.dfy ===
/** Failure-carrying values shared by every module of the model. */
module Wrappers {

  /** A value that may be absent: an optional field of a raw configuration. */
  datatype Option<+T> = None | Some(value: T) {

    /** The carried value, or `default` when absent (a field default). */
    function GetOr(default: T): (r: T) {
      match this
      case Some(v) => v
      case None => default
    }
  }

  /** Either a computed value or the error that stopped the computation. */
  datatype Result<+T, +E> = Success(value: T) | Failure(error: E)
}
